=== FILE: README.md ===
# Travel-booking SPA: the glue-level rules, modelled in Dafny

The repository is a React single-page application for a travel-booking site.
It talks to a remote REST backend, to a hosted identity service and to a
payment provider. It has no parser, codec or algorithm. What it does have is a
set of small decision rules and list-state transitions spread over its views.
This project models those rules as pure functions over immutable datatypes and
proves what they promise. **These are glue-level rules, not an algorithmic
core.**

The modules follow the source files:

| module | source file | what it models |
|---|---|---|
| `Base` | (shared) | `Option`, `Result`, `Outcome`; JavaScript string truthiness; ASCII `toLowerCase` |
| `Identity` | `providers/AuthProvider.jsx` | the user record `{ ...account, role }` and the three role names |
| `AccessGuard` | `components/ProtectedRoute.jsx` | spinner / redirect / render decision, case-insensitive role match |
| `Routes` | `main.jsx` | path → view table, which views are guarded and with which roles |
| `SecureClient` | `components/useAxiosSecure.jsx` | bearer-token request interceptor, 401/403 response interceptor, eject on cleanup |
| `Session` | `providers/AuthProvider.jsx` | user, `loading`, default auth header and stored `access-token` as one state machine |
| `Registration` | `components/Register.jsx` | password regex, ordering of the sign-up steps, social sign-up |
| `ListOps`, `Paging` | (shared) | id-keyed `map`/`filter` updates; `slice`-based pagination, 10 rows per page |
| `ManageUsers` | `components/ManageUsers.jsx` | query params, role change, request decision, row buttons |
| `MyBookings` | `components/MyBookings.jsx` | discount rule, cancel, per-status actions |
| `AssignedTours` | `components/MyAssignedTours.jsx` | accept / reject, per-status actions |
| `Wishlist` | `components/MyWishlist.jsx` | two-step fetch, delete, Previous/Next |
| `WishlistToggle` | `components/TourismAndTravelGuide.jsx` | heart toggle on package cards |
| `AddPackage` | `components/AddPackage.jsx` | tour-plan editing, validation, submit and reset |
| `PackageDetails` | `components/PackageDetailsPage.jsx` | day accordion, loading gate, booking |
| `Header` | `components/Header.jsx` | theme persistence, dashboard link, sign-out |
| `GuideProfile` | `components/TourGuideProfile.jsx` | rating picker, review submit |
| `RequestToAdmin` | `components/RequestToAdmin.jsx` | request status and the request itself |

Every reply of the identity service or of the backend is a parameter of the
operation that awaits it: a `Result` (value or error message) or an `Outcome`
(done or failed). Browser storage is a `map<string, string>`. Each operation
returns the new state together with the calls it makes, in order, so that
contracts can speak about "no call before the check" and "this call only
after that reply".

## Model

| member | source | states |
|---|---|---|
| Base.LowerChar | components/ManageUsers.jsx:79 | `toLowerCase` on one character: an ASCII capital becomes the letter 32 code points later, every other character is kept, and no capital remains |
| Base.Lower | components/ProtectedRoute.jsx:23-24 | `toLowerCase` on a string: same length, each character lowered as above |
| AccessGuard.HasRequiredRole | components/ProtectedRoute.jsx:23-24 | the `some` check is true iff some required role, lower-cased, equals the user's lower-cased role; a user with no role matches nothing |
| AccessGuard.Guard | components/ProtectedRoute.jsx:6-32 | spinner while loading whatever the user; no user redirects; absent or empty roles render the children; with roles, render iff the role matches; every redirect goes to `/login` and carries the attempted location |
| AccessGuard.NoRoleNeverGranted | components/ProtectedRoute.jsx:23-27 | a signed-in user without a role is redirected by every non-empty role set |
| AccessGuard.MoreRolesKeepGrant | components/ProtectedRoute.jsx:24 | enlarging a non-empty required set never turns a grant into a redirect |
| AccessGuard.SingleRoleGuard | components/ProtectedRoute.jsx:22-31 | with one lower-case required role, the user is admitted iff their role lower-cases to it |
| AccessGuard.GuardIgnoresCase | components/ProtectedRoute.jsx:23 | the decision does not depend on the letter case of the user's role |
| AccessGuard.GuardExamples | components/ProtectedRoute.jsx:24 | role `Admin` passes an `admin` guard; role `tourist` is sent to `/login` |
| Routes.Resolve | main.jsx:38-62 | a path selects a dashboard iff its first two segments are the role and `dashboard` (any case), and the payment view iff it is `payment/<id>` |
| Routes.ProtectionOf | main.jsx:53-60 | exactly the payment view and the three dashboards are wrapped in the guard |
| Routes.SplitPath | main.jsx:38-62 | reading a path, every segment produced is non-empty and free of `/`; which segments they are is stated by the two lemmas below |
| Routes.JoinSplit | main.jsx:38-62 | for every input, the segments produced from the rest of a path, joined with single slashes, are that text with every run of slashes shrunk to one and leading and trailing slashes dropped, a reference defined character by character |
| Routes.SegmentsCollapse | main.jsx:38-62 | the segments of any path are its maximal slash-free runs: joined with `/` they give the path with repeated, leading and trailing slashes removed |
| Routes.SplitJoin | main.jsx:38-62 | non-empty slash-free segments written as a path, with or without the leading `/`, split back into exactly those segments |
| Routes.VisitSegments | main.jsx:38-62 | unguarded views are always shown; a guarded view is shown, or the spinner, or the user is sent to `/login` |
| Routes.Visit | main.jsx:38-62 | navigating to a path shows its resolved view, the spinner only while a guarded view waits for the session, or `/login`; a guarded view is shown iff there is a user and the role set is absent or matched |
| Routes.GuardedViewsWaitForSession | main.jsx:53-60 | while the session loads, every guarded view shows the spinner |
| Routes.PaymentNeedsSessionOnly | main.jsx:53 | `/payment/<id>` shows the payment view for any signed-in user and sends everyone else to `/login` |
| Routes.DashboardAdmitsOnlyItsRole | main.jsx:54-60 | each dashboard subtree admits exactly the users whose role lower-cases to its role |
| Routes.UnguardedViews | main.jsx:41-52 | `package/:id` and `my-bookings` are not guarded |
| Routes.UnknownPathIsNotFound | main.jsx:62 | a path whose first segment names no route falls through to the error view |
| SecureClient.AttachToken | components/useAxiosSecure.jsx:16-27 | the `Authorization` header carries `Bearer <token>` iff the stored token is truthy; otherwise the config is unchanged; no other header is touched |
| SecureClient.AttachTokenIdempotent | components/useAxiosSecure.jsx:17-22 | attaching twice is attaching once |
| SecureClient.OnResponse | components/useAxiosSecure.jsx:29-40 | successes pass through; 401/403 call `logOut` exactly once and then navigate to `/login`; other statuses and missing responses do neither; a failure is never turned into a success |
| SecureClient.AuthFailureSignsOut | components/useAxiosSecure.jsx:33-38 | after a 401/403 with a successful sign-out the session is signed out, the navigation happens once and the caller sees the original error |
| SecureClient.NoTokenAfterSignOut | components/useAxiosSecure.jsx:18-21 | after a sign-out the request interceptor attaches nothing |
| SecureClient.Install | components/useAxiosSecure.jsx:16-40 | mounting appends one handler to each interceptor stack and keeps their indices |
| SecureClient.Cleanup | components/useAxiosSecure.jsx:42-45 | the cleanup blanks exactly the two slots the effect kept and keeps every other slot and both lengths |
| SecureClient.InstallCleanupRestores | components/useAxiosSecure.jsx:42-45 | mounting then cleaning up leaves both stacks running exactly the handlers they ran before |
| Session.Init | providers/AuthProvider.jsx:19-21 | the provider starts loading, with no user, no default header and the storage left by earlier visits |
| Session.SetAuthToken | providers/AuthProvider.jsx:11-17 | a truthy token becomes a header from which the server reads back that token; otherwise the header is deleted |
| Session.AdoptToken | providers/AuthProvider.jsx:99-102 | a truthy token is written under `access-token`, every other stored entry keeps its value, and it becomes the header, so header and storage agree; a falsy token changes nothing |
| Session.FetchUserRole | providers/AuthProvider.jsx:23-33 | a successful profile request yields its `role`; any failure yields `null` |
| Session.CreateUser | providers/AuthProvider.jsx:35-50 | succeeds iff account creation and profile update succeed, then the user carries the new name, photo and fetched role; failures leave the user; `loading` ends false |
| Session.LogIn | providers/AuthProvider.jsx:52-65 | success sets the user with the fetched role; failure is rethrown and leaves the user; `loading` ends false |
| Session.LogOut | providers/AuthProvider.jsx:67-80 | success leaves no user and no header and removes exactly the `access-token` entry, every other stored entry keeping its value; failure is rethrown and changes nothing but `loading`; header/storage agreement is preserved |
| Session.RoleOrTourist | providers/AuthProvider.jsx:105 | a truthy role is kept; a missing or empty role becomes `tourist` |
| Session.GoogleTry | providers/AuthProvider.jsx:85-105 | the `try` block runs to its end iff every awaited step succeeds, and then has set the user with the role or `tourist`; a rejected step leaves the session unchanged; the register call is made iff the backend reports the user unknown, always with role `tourist` |
| Session.SignUpWithGoogle | providers/AuthProvider.jsx:82-111 | the promise settles to `undefined` for every reply; a completed flow sets the user and stores a returned token; any failure is swallowed and leaves the session; the spinner ends |
| Session.SignUpWithGoogleFixed | providers/AuthProvider.jsx:82-111 | with `return result`, the calls and session changes are those of the as-written flow, and the promise yields the account iff every step succeeded, in which case that account is the signed-in user |
| Session.GoogleValueTracksUser | providers/AuthProvider.jsx:86-105 | from a signed-out page, the fixed promise yields an account iff the flow signed that account in |
| Session.GoogleUserHasRole | providers/AuthProvider.jsx:104-105 | a user signed in through Google carries the profile's truthy role, or `tourist` |
| Session.SignUpWithGitHub | providers/AuthProvider.jsx:113-116 | the popup's promise is passed through |
| Session.OnAuthStateChanged | providers/AuthProvider.jsx:118-141 | null signs out, removing exactly the `access-token` entry and keeping the rest of storage; an account sets the user with the fetched role and stores a token only if the token endpoint returns one; `loading` ends false |
| Session.HeaderCarriesStoredToken | providers/AuthProvider.jsx:11-17 | when header and storage agree, stripping `Bearer ` from the header gives the stored token |
| Session.SignedOutAgrees | providers/AuthProvider.jsx:133-137 | a signed-out session has header and storage in agreement |
| Session.InitAgreement | providers/AuthProvider.jsx:11-21 | after a page load, header and storage agree iff no token is stored |
| Session.FirstAuthChangeAgreement | providers/AuthProvider.jsx:118-141 | the first auth-change callback leaves header and storage in agreement iff it signs out, the token endpoint returns a token, or no token was stored |
| Registration.PatternImpliesPolicy | components/Register.jsx:22 | every password the regex accepts has 6+ characters, a lower-case and an upper-case letter |
| Registration.PatternIsPolicyOnOneLine | components/Register.jsx:22 | for passwords without line breaks the regex test is exactly that rule |
| Registration.PatternStricterAcrossLines | components/Register.jsx:22 | `abc\nDEFGHI` meets the rule but fails the regex |
| Registration.PasswordPatternTest | components/Register.jsx:22 | the unanchored regex `test`: some start position from which a lower-case and an upper-case letter and six characters follow, `.` not crossing a line break (the lemmas above relate it to the stated rule) |
| Registration.PayloadOf | components/Register.jsx:33 | the posted payload carries the form's email, name, photo URL and role, and no password |
| Registration.ErrorText | components/Register.jsx:48 | the toast text is the error's message, or the default text when it is empty |
| Registration.OnSubmit | components/Register.jsx:17-51 | no call before the password check; an email in use stops before the register call; the payload never holds the password; the account is created only after the backend reports success; navigation only on full success; every failure shows an error toast |
| Registration.SubmitScenario | components/Register.jsx:17-43 | a valid fresh sign-up makes the three calls in order and goes to `/login` |
| Registration.HandleSocialSignUp | components/Register.jsx:53-83 | the view reaches `/login` iff the sign-up yields an account that the backend knows or saves; a result without a user fails with the error toast; a known user gets no POST; new users are saved as `tourist` |
| Registration.GoogleSocialSignUpAlwaysFails | components/Register.jsx:53-56 | with the provider as written, Google social sign-up ends in the error toast with no call and no navigation, for every identity-service and backend reply |
| Registration.GoogleSocialSignUpFixed | components/Register.jsx:53-83 | with the provider returning its result, Google social sign-up reaches `/login` iff the provider flow completed and the backend knows or saves the user |
| Registration.GitHubSocialSignUp | components/Register.jsx:53-83 | GitHub social sign-up reaches `/login` iff the popup succeeds and the backend knows or saves the user |
| ListOps.MapWhere | components/ManageUsers.jsx:41 | `map` with an id test changes only the matching elements and keeps the length |
| ListOps.FilterOut | components/MyBookings.jsx:65 | `filter` drops exactly the matching elements and keeps every other element's count |
| ListOps.FilterOutAppend | components/MyAssignedTours.jsx:52 | `filter` keeps the relative order of the survivors |
| Paging.JsSlice | components/ManageUsers.jsx:112 | `Array.prototype.slice`: within bounds it is exactly the sub-list, and it never yields more than the list or more than `end - start` items |
| Paging.PageOf | components/ManageUsers.jsx:109-112 | page `p` shows at most 10 rows, the rows `(p-1)*10 ...` of the list, a full page when there are enough, nothing beyond the end |
| Paging.PageCount | components/ManageUsers.jsx:217 | `Math.ceil(n/10)` is the least page count whose pages hold `n` rows |
| Paging.PageNumbers | components/ManageUsers.jsx:217 | the pager offers buttons `1 ... ceil(n/10)` |
| Paging.ChunksFlatten | components/ManageUsers.jsx:109-112 | the pages, read in order, give back the list |
| Paging.PageOfIsChunk | components/ManageUsers.jsx:109-112 | every page from 1 to `ceil(n/10)` is the corresponding ten-row chunk of the reference cut, so those pages partition the list in order |
| Paging.ElementOnItsPage | components/ManageUsers.jsx:109-112 | every row appears on page `i/10+1` at position `i%10` |
| ManageUsers.HandleSearch | components/ManageUsers.jsx:78-80 | the stored search has the typed length, each ASCII capital replaced by its lower-case letter and every other character kept |
| ManageUsers.HandleSearchIdempotent | components/ManageUsers.jsx:79 | lower-casing the stored search again changes nothing |
| ManageUsers.HandleSearchKeystroke | components/ManageUsers.jsx:78-80 | one more typed character extends the stored search by that character lower-cased |
| ManageUsers.HandleRoleFilterChange | components/ManageUsers.jsx:82-84 | the filter is `''` or one of the three role names |
| ManageUsers.QueryParams | components/ManageUsers.jsx:25-35 | `search` is sent iff non-empty, `role` iff a filter is chosen, and nothing else |
| ManageUsers.ClearingFilterDropsRoleParam | components/ManageUsers.jsx:130-135 | choosing "All" or clearing the select sends no role |
| ManageUsers.FetchUsers | components/ManageUsers.jsx:31-34 | success replaces the rows, failure keeps them, the spinner stops |
| ManageUsers.ApplyRoleChange | components/ManageUsers.jsx:41 | the row with the id gets the role and loses its request; every other row and the length are unchanged |
| ManageUsers.ClearRequest | components/ManageUsers.jsx:55 | the row with the id loses its request and keeps its role; nothing else changes |
| ManageUsers.HandleRoleChange | components/ManageUsers.jsx:36-44 | one PATCH; on success the matching rows take the role and lose the request with their other fields kept, the other rows unchanged; on failure only the spinner changes; nothing else in the page state changes |
| ManageUsers.OpenModal | components/ManageUsers.jsx:66-70 | the modal opens for that row and action |
| ManageUsers.CloseModal | components/ManageUsers.jsx:72-76 | the modal closes and forgets the row and action |
| ManageUsers.DecisionOf | components/ManageUsers.jsx:249 | "Yes" sends `approved` iff the modal was opened to approve, `declined` otherwise |
| ManageUsers.HandleRequestDecision | components/ManageUsers.jsx:46-63 | nothing without a selected row; approval PATCHes the decision and then the requested role, granting it only if that second PATCH succeeds; decline clears the request; only the selected row can change; the modal closes either way but keeps its selected row and action type |
| ManageUsers.DeclineKeepsRoles | components/ManageUsers.jsx:55 | a decline changes no role and clears the selected user's request |
| ManageUsers.ApproveGrantsRequestedRole | components/ManageUsers.jsx:52-53 | approving through the modal gives the user the requested role |
| ManageUsers.ActionsOf | components/ManageUsers.jsx:165-184 | "Already Admin" iff the role lower-cases to `admin`; Make Admin disabled iff a request is pending; Make Tour Guide disabled iff the role is `tourguide` or a request is pending |
| ManageUsers.OffersDecision | components/ManageUsers.jsx:187-204 | Approve and Decline are offered iff the row's `requestRole` is truthy (a predicate used by the lemmas around it) |
| ManageUsers.PendingRequestBlocksDirectChange | components/ManageUsers.jsx:171-187 | a row with a pending request has both buttons disabled or is already admin |
| ManageUsers.RoleChangeSettlesRow | components/ManageUsers.jsx:41-187 | after a role change the row offers no decision, and its buttons follow the new role |
| MyBookings.Init | components/MyBookings.jsx:15-22 | the page starts loading, with no bookings and no discount |
| MyBookings.FetchBookings | components/MyBookings.jsx:25-60 | fetches only for a user with an email; the discount turns on with three or more bookings and never off |
| MyBookings.NoEmailKeepsSpinner | components/MyBookings.jsx:57-59 | without an email the view never leaves its spinner |
| MyBookings.DiscountIffThreeBookings | components/MyBookings.jsx:41-44 | from the first render the discount is on iff at least three bookings were fetched |
| MyBookings.HandleCancel | components/MyBookings.jsx:62-69 | success drops exactly the bookings with the id and keeps every other booking; failure changes nothing; the discount is kept |
| MyBookings.CancelKeepsOrder | components/MyBookings.jsx:65 | cancelling keeps the remaining bookings in order |
| MyBookings.CancelUnknownId | components/MyBookings.jsx:65 | cancelling an id no booking has changes nothing |
| MyBookings.DiscountSurvivesCancel | components/MyBookings.jsx:41-65 | the discount stays on after cancelling below three bookings |
| MyBookings.Row | components/MyBookings.jsx:124-151 | a row is discounted iff the discount is on and it is the fourth booking overall; Cancel only for `In Review`, Pay only for `Accepted`, never both |
| MyBookings.DiscountedRowExists | components/MyBookings.jsx:130-132 | a discounted row exists iff the discount is on and there are at least four bookings |
| AssignedTours.FetchTours | components/MyAssignedTours.jsx:14-38 | fetches only for a user with a display name |
| AssignedTours.HandleAccept | components/MyAssignedTours.jsx:40-47 | success sets `Accepted` on the matching tours only and keeps the length; failure changes nothing |
| AssignedTours.HandleReject | components/MyAssignedTours.jsx:49-56 | success drops the matching tours and keeps every other; failure changes nothing |
| AssignedTours.AcceptedTourIsSettled | components/MyAssignedTours.jsx:97 | an accepted tour offers neither action again |
| AssignedTours.OffersDecision | components/MyAssignedTours.jsx:97-112 | Accept and Reject are offered iff the status is `In Review` (a predicate used by the lemmas around it) |
| AssignedTours.RejectKeepsOrder | components/MyAssignedTours.jsx:52 | rejecting keeps the remaining tours in order |
| AssignedTours.AcceptAfterRejectIsNoOp | components/MyAssignedTours.jsx:40-56 | after a rejection, accepting the same id changes nothing |
| Wishlist.Init | components/MyWishlist.jsx:10-14 | the page starts loading on page 1, with no packages and no error |
| Wishlist.FetchWishlist | components/MyWishlist.jsx:18-51 | only for a user with an email; an empty wishlist gives "No items in your wishlist." and no package request; each failure gives its own message; the package request is made iff the wishlist has entries |
| Wishlist.HandleDelete | components/MyWishlist.jsx:53-63 | success drops the package from both lists and keeps the rest; failure sets "Failed to delete wishlist item." |
| Wishlist.DeleteKeepsOrder | components/MyWishlist.jsx:59 | deleting keeps the remaining packages in order |
| Wishlist.TotalPages | components/MyWishlist.jsx:72 | the page count is the least number of ten-row pages holding all packages, and zero iff there are none |
| Wishlist.PrevDisabled | components/MyWishlist.jsx:116 | Previous is disabled on page 1 |
| Wishlist.NextDisabledAsWritten | components/MyWishlist.jsx:132 | Next is disabled only when the page number equals the page count |
| Wishlist.NextDisabled | components/MyWishlist.jsx:132 | the corrected rule: from any page, Next is enabled iff the next page has rows, and it disables Next wherever the as-written rule does |
| Wishlist.View | components/MyWishlist.jsx:74-136 | loading, then the error text, else the current page's at most ten rows, buttons `1..ceil(n/10)`, Previous disabled iff on page 1 and Next disabled iff the page equals the page count |
| Wishlist.ViewFixed | components/MyWishlist.jsx:130-133 | the corrected page differs from the as-written one only in Next, disabled from the last page on |
| Wishlist.GoTo | components/MyWishlist.jsx:65-67 | a page change sets the current page and nothing else |
| Wishlist.NextAsWrittenLeadsPastEnd | components/MyWishlist.jsx:130-133 | as written, an enabled Next on or past the last page leads to a page with no rows |
| Wishlist.DeletingLastPackageLeavesNextEnabled | components/MyWishlist.jsx:53-72 | deleting the only package leaves zero pages with Next enabled, leading to an empty page 2 where Next is still enabled |
| Wishlist.EnabledButtonsLeadToRows | components/MyWishlist.jsx:114-133 | with the corrected rule, Next is enabled iff the next page has rows, and Previous within range is enabled iff the previous page has rows |
| WishlistToggle.WishlistIds | components/TourismAndTravelGuide.jsx:65 | the wishlist is the entries' package ids, in order |
| WishlistToggle.Heart | components/TourismAndTravelGuide.jsx:144 | the heart is filled iff the id occurs in the wishlist |
| WishlistToggle.FetchWishlist | components/TourismAndTravelGuide.jsx:22-71 | only with a user; success replaces the list by the ids, failure keeps it |
| WishlistToggle.HeartAfterFetch | components/TourismAndTravelGuide.jsx:65 | after a fetch the heart is filled iff some entry names the package |
| WishlistToggle.Toggle | components/TourismAndTravelGuide.jsx:73-103 | no user: nothing sent or changed, an error; otherwise one DELETE or POST; success flips the id's membership and keeps every other id's; failure keeps the list |
| WishlistToggle.ToggleTwiceRestores | components/TourismAndTravelGuide.jsx:81-96 | adding an absent id and toggling again restores the list |
| WishlistToggle.ToggleFlipsHeart | components/TourismAndTravelGuide.jsx:88-96 | a successful toggle flips this card's heart and no other |
| AddPackage.AddDay | components/AddPackage.jsx:49-51 | one empty day is appended; everything else is unchanged |
| AddPackage.SetPlanField | components/AddPackage.jsx:43-47 | only the given field of the given day changes |
| AddPackage.PlanFilled | components/AddPackage.jsx:62-67 | true iff every day has both fields filled |
| AddPackage.CheckTourPlan | components/AddPackage.jsx:62-68 | the loop passes iff every day has both fields filled |
| AddPackage.Validate | components/AddPackage.jsx:53-69 | the form passes iff every check passes; each message appears exactly when its check is the first to fail |
| AddPackage.InitialFormIsInvalid | components/AddPackage.jsx:10-17 | the initial form fails with "Please fill out all fields" |
| AddPackage.AddDayNeedsFilling | components/AddPackage.jsx:49-66 | a new day blocks a valid form until both its fields are filled |
| AddPackage.Submit | components/AddPackage.jsx:71-112 | an invalid form posts nothing and shows its message; a valid one is posted with its fields; success resets to the initial form; posted prices are positive |
| AddPackage.NoDoubleSubmit | components/AddPackage.jsx:99-105 | after a successful submit, submitting again posts nothing |
| PackageDetails.ToggleDay | components/PackageDetailsPage.jsx:58-60 | the day opens iff it was not the open one, and closes iff it was |
| PackageDetails.Marker | components/PackageDetailsPage.jsx:135 | the marker is `-` iff the day shows its text, `+` otherwise |
| PackageDetails.ToggleShowsOnlyThatDay | components/PackageDetailsPage.jsx:128-141 | after a toggle only the toggled day can show its text |
| PackageDetails.ToggleTwice | components/PackageDetailsPage.jsx:58-60 | toggling twice restores a closed accordion or the same open day; from another open day it closes all |
| PackageDetails.View | components/PackageDetailsPage.jsx:77-83 | the page shows details iff both package and user are present |
| PackageDetails.OnAuthChange | components/PackageDetailsPage.jsx:24-33 | a signed-out visitor is sent to `/login` |
| PackageDetails.HandleBooking | components/PackageDetailsPage.jsx:62-75 | the booking carries the package id, the user's email, the date and the guide; the modal opens only on success |
| PackageDetails.ModalOnlyAfterSuccess | components/PackageDetailsPage.jsx:64-71 | from a closed modal, it opens iff the booking post succeeds |
| PackageDetails.ModalOpenIffSomeBookingSucceeded | components/PackageDetailsPage.jsx:62-75 | after any run of booking attempts the modal is open iff it was open or some post succeeded |
| Header.InitialDarkMode | components/Header.jsx:8 | the first render is dark iff the stored theme is `dark` |
| Header.PersistTheme | components/Header.jsx:11-15 | the stored theme is `dark` iff dark mode is on, else `light`; no other key changes |
| Header.ThemeRoundTrip | components/Header.jsx:8-14 | reading the stored theme back gives the mode that was stored |
| Header.ToggleTheme | components/Header.jsx:30-32 | the toggle flips the mode |
| Header.ToggleThemeTwice | components/Header.jsx:31 | toggling twice restores the mode and the stored theme |
| Header.DashboardLink | components/Header.jsx:97-98 | a link iff the role is set, to `/` + lower-cased role + `/dashboard` |
| Header.DashboardLinkIsAdmitted | components/Header.jsx:98 | for a role naming a dashboard in any case, the link resolves to that dashboard and the guard admits the user |
| Header.LinkAdmits | components/Header.jsx:98 | the dashboard path of a known role resolves to its dashboard and admits a user whose role lower-cases to it |
| Header.HandleSignOut | components/Header.jsx:17-28 | the token is removed only after sign-out succeeds, and the session is then signed out with every other stored entry, the theme included, kept; a failed sign-out keeps storage and user |
| Header.SignOutKeepsAgreement | components/Header.jsx:17-28 | signing out from the header keeps header and stored token in agreement, on success and on failure |
| GuideProfile.Init | components/TourGuideProfile.jsx:12-16 | the form starts with rating 0, which is in range, and an empty comment |
| GuideProfile.PickRating | components/TourGuideProfile.jsx:127-134 | a radio sets the rating to its value, between 1 and 5 |
| GuideProfile.SubmitReview | components/TourGuideProfile.jsx:34-54 | no user: nothing posted or changed; otherwise `{rating, comment, email}` is posted and on success appended to the guide's reviews (or to `[]`), its other fields kept, rating and comment cleared; the rating stays in 0..5 |
| GuideProfile.SubmittedReviewCount | components/TourGuideProfile.jsx:44-47 | a successful submit adds exactly one review at the end |
| GuideProfile.PickedRatingIsPosted | components/TourGuideProfile.jsx:41 | a picked rating is posted as a value from 1 to 5 |
| RequestToAdmin.StatusOf | components/RequestToAdmin.jsx:23-27 | a truthy `requestRole` reads as pending, anything else as no request (used by FetchStatus) |
| RequestToAdmin.FetchStatus | components/RequestToAdmin.jsx:13-33 | only for a user with an email; pending iff the profile's `requestRole` is truthy; a failure keeps the status; loading ends false |
| RequestToAdmin.HandleRequest | components/RequestToAdmin.jsx:35-51 | pending afterwards iff the backend reported success or it already was; each outcome has its toast; loading ends false |
| RequestToAdmin.ShowsRequestButton | components/RequestToAdmin.jsx:53-73 | the request button shows iff the page is not loading and no request is pending |
| RequestToAdmin.PendingIsFinal | components/RequestToAdmin.jsx:64-73 | once pending, the request button never comes back |
| RequestToAdmin.ButtonAfterRequest | components/RequestToAdmin.jsx:39-73 | after a request the button shows iff it was not accepted and nothing was pending |

## Left out

- Network, identity-service and payment SDK calls: their replies are parameters. The model has no URLs, headers of raw HTTP, JSON or FormData.
- Concurrency: the source defines no precedence between the auth-change callback and explicit sign-in and sign-out calls, or between overlapping requests. Stale React closures (`users` read at render time) are therefore modelled as the current state.
- React rendering, effects scheduling, modals, toasts' timing, confetti, date pickers and date formatting, image upload.
- `components/CheckoutForm.jsx` and the Stripe payment flow: a vendor SDK with floating-point prices.
- Floating-point arithmetic: the 10% discount `price * 0.9` with `toFixed(2)` is not computed; only which row shows it.
- `axiosInterceptor.js`: a one-line duplicate of the header rule that reads a cookie.
- Presentational views (home, footer, about, contact, blogs, community, package and story lists, story detail, tour types, root layout, payment page, the three dashboard layouts) and the guide and package list fetches of `AddPackage`, `TourismAndTravelGuide` and `TourGuideProfile`.
- Base.Lower: models `toLowerCase` on ASCII letters only. Role names, route literals and filter values are ASCII, but the admin's free-text search (components/ManageUsers.jsx:78-80) is not: a capital such as `É` is lowered by JavaScript and kept unchanged by the model.
- Registration.PasswordPatternTest: counts a password's length in Unicode characters. Without the `u` flag JavaScript's `.` counts UTF-16 code units, so `Aa😀😀` (six units, four characters) passes the browser's test and fails the model's.
- AddPackage.Validate: the price is an integer or absent, not a string; JavaScript's coercion of a non-numeric string to `NaN`, which passes `price <= 0`, is not modelled.
- ManageUsers.ActionsOf: a row without a role is reported as `RoleMissing`; in the source `toLowerCase` throws and the table fails to render.
- AddPackage.SetPlanField: requires an index of a rendered day; the source would throw for any other.
- WishlistToggle.Toggle: the explicit `Authorization` header built from storage, which reads `Bearer null` when no token is stored, is not modelled.
- GuideProfile.SubmitReview: requires a loaded guide, because the review form is rendered only then (components/TourGuideProfile.jsx:72); with no guide the source's state updater would throw on `prevGuide.reviews`.
- Routes.SplitPath: collapses repeated slashes (Routes.SegmentsCollapse states exactly how), so `//payment/x` resolves to the payment view, while the router does not match such a path.
- Routes.Resolve: nested dashboard child routes (`myprofile`, `addpackage`, `manageusers`) are part of the splat and are not resolved further.

## Findings

| source | as written | input that shows it | evidently intended | confidence | as-written member | corrected member |
|---|---|---|---|---|---|---|
| providers/AuthProvider.jsx:82-111 | `signUpWithGoogle` has no `return`, so it resolves to `undefined`; the registration view reads `result.user` and throws, so Google social sign-up always shows the error toast | any successful Google popup, with the user known to the backend | return the sign-in result, so the view can read `result.user` | not executed | Registration.GoogleSocialSignUpAlwaysFails | Registration.GoogleSocialSignUpFixed |
| components/MyWishlist.jsx:132 | Next is disabled only when `currentPage === totalPages`, so after deletions it can stay enabled on or past the last page | one wishlisted package on page 1; delete it: the page count becomes 0 and Next leads to an empty page 2, where it is still enabled | disable Next when `currentPage >= totalPages` | not executed | Wishlist.DeletingLastPackageLeavesNextEnabled | Wishlist.EnabledButtonsLeadToRows |

=== FILE: access_guard.dfy ===
/** The route guard (`ProtectedRoute`): spinner while the session is being
    resolved, redirect to the login view when there is no user or the user's
    role is not among the required ones, the guarded children otherwise. */
module AccessGuard {
  import opened Base
  import opened Identity

  const LoginPath: string := "/login"

  /** What the guard renders. A redirect carries the attempted location as
      router state, so that the login view can send the user back. */
  datatype Decision = Spinner | Redirect(to: string, from: string) | Children

  /** Specification of the role check: some required role equals the user's
      role, both lower-cased. A user without a role matches nothing. */
  ghost predicate RoleMatches(role: Option<string>, required: seq<string>) {
    role.Some? && exists i :: 0 <= i < |required| && Lower(required[i]) == Lower(role.value)
  }

  /** `roles.some(role => role.toLowerCase() === userRole)`, where `userRole`
      is `user?.role?.toLowerCase()` and so `undefined` when the role is missing. */
  function HasRequiredRole(role: Option<string>, required: seq<string>): (b: bool)
    ensures b <==> RoleMatches(role, required)
  {
    if |required| == 0 then false
    else
      (role.Some? && Lower(required[0]) == Lower(role.value))
      || HasRequiredRole(role, required[1..])
  }

  /** The guard. `roles` is `None` when the prop is not given. */
  function Guard(loading: bool, user: Option<User>, roles: Option<seq<string>>, location: string): (d: Decision)
    ensures loading ==> d == Spinner
    ensures d.Redirect? ==> d == Redirect(LoginPath, location)
    ensures !loading && user.None? ==> d.Redirect?
    ensures !loading && user.Some? && (roles.None? || |roles.value| == 0) ==> d == Children
    ensures !loading && user.Some? && roles.Some? && |roles.value| > 0 ==>
              (d == Children <==> RoleMatches(user.value.role, roles.value))
    ensures !loading ==> d != Spinner
  {
    if loading then Spinner
    else if user.None? then Redirect(LoginPath, location)
    else if roles.Some? && |roles.value| > 0 && !HasRequiredRole(user.value.role, roles.value) then
      Redirect(LoginPath, location)
    else Children
  }

  /** A signed-in user whose profile has no role is turned away by every
      non-empty role set. */
  lemma NoRoleNeverGranted(account: Account, roles: seq<string>, location: string)
    requires |roles| > 0
    ensures Guard(false, Some(User(account, None)), Some(roles), location) == Redirect(LoginPath, location)
  {
  }

  /** Adding roles to a non-empty required set never turns a grant into a
      redirect (the check is an existential). */
  lemma MoreRolesKeepGrant(user: User, roles: seq<string>, more: seq<string>, location: string)
    requires |roles| > 0
    requires forall i :: 0 <= i < |roles| ==> roles[i] in more
    requires Guard(false, Some(user), Some(roles), location) == Children
    ensures Guard(false, Some(user), Some(more), location) == Children
  {
    var i :| 0 <= i < |roles| && Lower(roles[i]) == Lower(user.role.value);
    var j :| 0 <= j < |more| && more[j] == roles[i];
    assert RoleMatches(user.role, more);
  }

  /** With a single required role already in lower case, the guard admits a
      signed-in user exactly when the user's role lower-cases to it. */
  lemma SingleRoleGuard(user: User, required: string, location: string)
    requires Lower(required) == required
    ensures Guard(false, Some(user), Some([required]), location) ==
              (if user.role.Some? && Lower(user.role.value) == required then Children
               else Redirect(LoginPath, location))
  {
  }

  /** The role comparison ignores ASCII case on both sides. */
  lemma GuardIgnoresCase(account: Account, role: string, roles: seq<string>, location: string)
    ensures Guard(false, Some(User(account, Some(role))), Some(roles), location)
         == Guard(false, Some(User(account, Some(Lower(role)))), Some(roles), location)
  {
    LowerIdempotent(role);
  }

  /** Role "Admin" is admitted where "admin" is required; role "tourist" is not. */
  lemma GuardExamples(account: Account)
    ensures Guard(false, Some(User(account, Some("Admin"))), Some([AdminRole]), "/admin/dashboard") == Children
    ensures Guard(false, Some(User(account, Some("tourist"))), Some([AdminRole]), "/admin/dashboard")
         == Redirect("/login", "/admin/dashboard")
  {
    assert Lower("Admin") == "admin";
    assert Lower("tourist") == "tourist";
    assert Lower("admin") == "admin";
    assert Lower(AdminRole)[0] != Lower("tourist")[0];
  }
}

=== FILE: add_package.dfy ===
/** The admin's add-package form (`AddPackage`): editing the day-by-day tour
    plan, validation with its three error messages, and the submit that posts
    only a valid form and clears it afterwards. */
module AddPackage {
  import opened Base

  const DefaultGuide: string := "Default Guide"
  const DefaultType: string := "Hiking"

  const FillAllFields: string := "Please fill out all fields"
  const PriceNotPositive: string := "Price must be a positive number"
  const FillPlanFields: string := "Please fill out all tour plan fields"
  const Added: string := "Package added successfully!"
  const AddFailed: string := "Error adding package"

  /** One day of the tour plan. */
  datatype Day = Day(day: string, info: string)

  const EmptyDay: Day := Day("", "")

  /** The form's fields. `images` are the chosen file names; `price` is the
      number typed, absent while the input is empty. */
  datatype Form = Form(packageName: string, images: seq<string>, about: string, tourPlan: seq<Day>,
                       guide: string, price: Option<int>, tourType: string)

  /** The form as first shown and as left after a successful submit. */
  const InitialForm: Form := Form("", [], "", [EmptyDay], DefaultGuide, None, DefaultType)

  datatype Toast = Success(text: string) | Error(text: string)

  // ---------------------------------------------------------------------------
  // Editing the tour plan
  // ---------------------------------------------------------------------------

  /** `addDay()`: one more, empty, day at the end. */
  function AddDay(f: Form): (f': Form)
    ensures |f'.tourPlan| == |f.tourPlan| + 1
    ensures f'.tourPlan[..|f.tourPlan|] == f.tourPlan && f'.tourPlan[|f.tourPlan|] == EmptyDay
    ensures f' == f.(tourPlan := f'.tourPlan)
  {
    f.(tourPlan := f.tourPlan + [EmptyDay])
  }

  datatype Field = DayField | InfoField

  /** `handleTourPlanChange(index, field, value)`. The index is always that of
      a rendered day: the source writes through `newTourPlan[index]`, which
      fails for any other index. */
  function SetPlanField(f: Form, index: nat, field: Field, value: string): (f': Form)
    requires index < |f.tourPlan|
    ensures |f'.tourPlan| == |f.tourPlan|
    ensures f' == f.(tourPlan := f'.tourPlan)
    ensures forall i :: 0 <= i < |f.tourPlan| && i != index ==> f'.tourPlan[i] == f.tourPlan[i]
    ensures field == DayField ==> f'.tourPlan[index] == f.tourPlan[index].(day := value)
    ensures field == InfoField ==> f'.tourPlan[index] == f.tourPlan[index].(info := value)
  {
    var d := f.tourPlan[index];
    var d' := match field case DayField => d.(day := value) case InfoField => d.(info := value);
    f.(tourPlan := f.tourPlan[index := d'])
  }

  // ---------------------------------------------------------------------------
  // Validation
  // ---------------------------------------------------------------------------

  /** The first check: every required field is filled, at least one image is
      chosen and a real guide is selected. */
  predicate RequiredFilled(f: Form) {
    Truthy(f.packageName) && Truthy(f.about) && f.price.Some? && Truthy(f.tourType)
    && |f.images| > 0 && f.guide != DefaultGuide
  }

  predicate DayFilled(d: Day) {
    Truthy(d.day) && Truthy(d.info)
  }

  /** Every day of the plan has both fields filled. */
  function PlanFilled(plan: seq<Day>): (b: bool)
    ensures b <==> forall i :: 0 <= i < |plan| ==> DayFilled(plan[i])
  {
    if |plan| == 0 then true
    else DayFilled(plan[0]) && PlanFilled(plan[1..])
  }

  /** The loop `for (let plan of tourPlan)`: stops at the first day with an
      empty field. */
  method CheckTourPlan(plan: seq<Day>) returns (ok: bool)
    ensures ok <==> forall i :: 0 <= i < |plan| ==> DayFilled(plan[i])
  {
    var k := 0;
    while k < |plan|
      invariant 0 <= k <= |plan|
      invariant forall i :: 0 <= i < k ==> DayFilled(plan[i])
    {
      if !DayFilled(plan[k]) {
        return false;
      }
      k := k + 1;
    }
    return true;
  }

  /** `validateForm()`: `None` when the form may be posted, otherwise the
      message of the first failing check. */
  function Validate(f: Form): (err: Option<string>)
    ensures err.None? <==> RequiredFilled(f) && f.price.value > 0 && PlanFilled(f.tourPlan)
    ensures err == Some(FillAllFields) <==> !RequiredFilled(f)
    ensures err == Some(PriceNotPositive) <==> RequiredFilled(f) && f.price.value <= 0
    ensures err == Some(FillPlanFields) <==>
              RequiredFilled(f) && f.price.value > 0 && exists i :: 0 <= i < |f.tourPlan| && !DayFilled(f.tourPlan[i])
  {
    if !RequiredFilled(f) then Some(FillAllFields)
    else if f.price.value <= 0 then Some(PriceNotPositive)
    else if !PlanFilled(f.tourPlan) then Some(FillPlanFields)
    else None
  }

  /** The form as first shown cannot be submitted. */
  lemma InitialFormIsInvalid()
    ensures Validate(InitialForm) == Some(FillAllFields)
  {
  }

  /** Adding a day to a form that would pass blocks it until the new day is filled. */
  lemma AddDayNeedsFilling(f: Form)
    requires Validate(f).None?
    ensures Validate(AddDay(f)) == Some(FillPlanFields)
    ensures Validate(SetPlanField(SetPlanField(AddDay(f), |f.tourPlan|, DayField, "Day 9"), |f.tourPlan|, InfoField, "Rest")).None?
  {
    var g := AddDay(f);
    assert !DayFilled(g.tourPlan[|f.tourPlan|]);
    var h := SetPlanField(SetPlanField(g, |f.tourPlan|, DayField, "Day 9"), |f.tourPlan|, InfoField, "Rest");
    assert forall i :: 0 <= i < |h.tourPlan| ==> DayFilled(h.tourPlan[i]) by {
      forall i | 0 <= i < |h.tourPlan|
        ensures DayFilled(h.tourPlan[i])
      {
        if i < |f.tourPlan| {
          assert h.tourPlan[i] == f.tourPlan[i];
        }
      }
    }
  }

  // ---------------------------------------------------------------------------
  // Submit
  // ---------------------------------------------------------------------------

  /** The multipart payload of `POST /api/packages`. */
  datatype Post = Post(packageName: string, images: seq<string>, about: string, tourPlan: seq<Day>,
                       guide: string, price: int, tourType: string)

  /** `handleSubmit`: an invalid form shows its error and posts nothing; a
      valid one is posted (outcome `reply`) and, on success, reset. */
  function Submit(f: Form, reply: Outcome): (r: (Form, Option<Post>, Toast))
    ensures Validate(f).Some? ==> r == (f, None, Error(Validate(f).value))
    ensures Validate(f).None? ==> r.1 == Some(Post(f.packageName, f.images, f.about, f.tourPlan, f.guide, f.price.value, f.tourType))
    ensures Validate(f).None? && reply.Done? ==> r.0 == InitialForm && r.2 == Success(Added)
    ensures Validate(f).None? && reply.Failed? ==> r.0 == f && r.2 == Error(AddFailed)
    // whatever is posted has a positive price and a filled plan
    ensures r.1.Some? ==> r.1.value.price > 0 && r.1.value.guide != DefaultGuide && |r.1.value.images| > 0
  {
    match Validate(f)
    case Some(message) => (f, None, Error(message))
    case None =>
      var post := Post(f.packageName, f.images, f.about, f.tourPlan, f.guide, f.price.value, f.tourType);
      if reply.Done? then (InitialForm, Some(post), Success(Added))
      else (f, Some(post), Error(AddFailed))
  }

  /** After a successful submit the same form cannot be posted twice in a row:
      the reset form fails validation. */
  lemma NoDoubleSubmit(f: Form, reply: Outcome)
    requires Validate(f).None?
    ensures Submit(Submit(f, Done).0, reply).1.None?
  {
  }
}

=== FILE: assigned_tours.dfy ===
/** The guide's assigned-tours table (`MyAssignedTours`): the fetch, accepting
    and rejecting a booking, and which rows offer those actions. */
module AssignedTours {
  import opened Base
  import opened Identity
  import ListOps

  const InReview: string := "In Review"
  const Accepted: string := "Accepted"
  const Rejected: string := "Rejected"

  /** An assigned booking joined with its package's name and price. */
  datatype Tour = Tour(id: string, packageName: string, touristEmail: string, price: int, status: string)

  datatype State = State(tours: seq<Tour>, loading: bool)

  /** The status PATCHes the view sends. */
  datatype Patch = PatchStatus(id: string, status: string)

  /** The fetch effect: it runs only for a user with a display name (the
      guide's name is the query). */
  function FetchTours(s: State, user: Option<User>, reply: Result<seq<Tour>>): (s': State)
    ensures !(user.Some? && Truthy(user.value.account.displayName)) ==> s' == s
    ensures user.Some? && Truthy(user.value.account.displayName) ==>
              !s'.loading && s'.tours == (if reply.Ok? then reply.value else s.tours)
  {
    if user.Some? && Truthy(user.value.account.displayName) then
      match reply
      case Ok(data) => State(data, false)
      case Err(_) => s.(loading := false)
    else s
  }

  /** `handleAccept(id)`: PATCH status `Accepted`; on success only the
      matching tours change, and only in their status. */
  function HandleAccept(s: State, bookingId: string, reply: Outcome): (r: (State, Patch))
    ensures r.1 == PatchStatus(bookingId, Accepted)
    ensures r.0.loading == s.loading
    ensures reply.Failed? ==> r.0 == s
    ensures |r.0.tours| == |s.tours|
    ensures forall i :: 0 <= i < |s.tours| && s.tours[i].id != bookingId ==> r.0.tours[i] == s.tours[i]
    ensures reply.Done? ==> forall i :: 0 <= i < |s.tours| && s.tours[i].id == bookingId ==>
              r.0.tours[i] == s.tours[i].(status := Accepted)
  {
    var tours := if reply.Done? then ListOps.MapWhere(s.tours, (t: Tour) => t.id == bookingId, (t: Tour) => t.(status := Accepted))
                 else s.tours;
    (s.(tours := tours), PatchStatus(bookingId, Accepted))
  }

  /** `handleReject(id)`: PATCH status `Rejected`; on success the matching
      tours leave the table. */
  function HandleReject(s: State, bookingId: string, reply: Outcome): (r: (State, Patch))
    ensures r.1 == PatchStatus(bookingId, Rejected)
    ensures r.0.loading == s.loading
    ensures reply.Failed? ==> r.0 == s
    ensures reply.Done? ==> forall t :: t in r.0.tours ==> t in s.tours && t.id != bookingId
    ensures reply.Done? ==> forall t: Tour :: t.id != bookingId ==> multiset(r.0.tours)[t] == multiset(s.tours)[t]
  {
    var tours := if reply.Done? then ListOps.FilterOut(s.tours, (t: Tour) => t.id == bookingId) else s.tours;
    (s.(tours := tours), PatchStatus(bookingId, Rejected))
  }

  /** Accept and Reject are offered only on a tour still under review. */
  predicate OffersDecision(t: Tour) {
    t.status == InReview
  }

  /** Once accepted, a tour offers neither action again. */
  lemma AcceptedTourIsSettled(s: State, bookingId: string, i: int)
    requires 0 <= i < |s.tours| && s.tours[i].id == bookingId
    ensures !OffersDecision(HandleAccept(s, bookingId, Done).0.tours[i])
  {
  }

  /** Rejecting keeps the other tours in their order: rejecting in a list made
      of two parts rejects in each part. */
  lemma RejectKeepsOrder(s: State, front: seq<Tour>, back: seq<Tour>, bookingId: string)
    requires s.tours == front + back
    ensures HandleReject(s, bookingId, Done).0.tours ==
              HandleReject(s.(tours := front), bookingId, Done).0.tours
              + HandleReject(s.(tours := back), bookingId, Done).0.tours
  {
    ListOps.FilterOutAppend(front, back, (t: Tour) => t.id == bookingId);
  }

  /** After a rejection no tour with that id is left to accept: accepting it
      then changes nothing. */
  lemma AcceptAfterRejectIsNoOp(s: State, bookingId: string)
    ensures var s1 := HandleReject(s, bookingId, Done).0;
            HandleAccept(s1, bookingId, Done).0 == s1
  {
    var s1 := HandleReject(s, bookingId, Done).0;
    var s2 := HandleAccept(s1, bookingId, Done).0;
    assert forall i :: 0 <= i < |s1.tours| ==> s1.tours[i] in s1.tours;
    assert s2.tours == s1.tours;
  }
}

=== FILE: base.dfy ===
/** Shared vocabulary for the model: optional values, the outcome of an awaited
    call that may reject, and the few JavaScript value rules the views rely on
    (truthiness of strings, ASCII lower-casing). */
module Base {

  /** A value that may be `null`/`undefined` in the source. */
  datatype Option<+T> = None | Some(value: T)

  /** The settled value of an awaited call that either resolves with a value
      or rejects with an error carrying a message. */
  datatype Result<+T> = Ok(value: T) | Err(message: string)

  /** The settled value of an awaited call whose resolved value is not used. */
  datatype Outcome = Done | Failed(message: string)

  /** JavaScript truthiness of a string: only the empty string is falsy. */
  predicate Truthy(s: string) {
    |s| > 0
  }

  /** JavaScript truthiness of a possibly-null string. */
  predicate TruthyOpt(o: Option<string>) {
    o.Some? && Truthy(o.value)
  }

  predicate IsUpperAscii(c: char) {
    'A' <= c <= 'Z'
  }

  predicate IsLowerAscii(c: char) {
    'a' <= c <= 'z'
  }

  /** `toLowerCase` restricted to the ASCII letters. */
  function LowerChar(c: char): (r: char)
    ensures !IsUpperAscii(r)
    ensures IsUpperAscii(c) ==> IsLowerAscii(r) && r as int == c as int + 32
    ensures !IsUpperAscii(c) ==> r == c
  {
    if IsUpperAscii(c) then (c as int - 'A' as int + 'a' as int) as char else c
  }

  /** `String.prototype.toLowerCase`, ASCII letters only. */
  function Lower(s: string): (r: string)
    ensures |r| == |s|
    ensures forall i :: 0 <= i < |s| ==> r[i] == LowerChar(s[i])
  {
    if |s| == 0 then [] else [LowerChar(s[0])] + Lower(s[1..])
  }

  /** Lower-casing is idempotent: a stored lower-cased string lower-cases to itself. */
  lemma LowerIdempotent(s: string)
    ensures Lower(Lower(s)) == Lower(s)
  {
    assert forall i :: 0 <= i < |s| ==> LowerChar(LowerChar(s[i])) == LowerChar(s[i]);
  }

  /** Lower-casing distributes over concatenation. */
  lemma LowerAppend(a: string, b: string)
    ensures Lower(a + b) == Lower(a) + Lower(b)
  {
    assert forall i :: 0 <= i < |a + b| ==> Lower(a + b)[i] == (Lower(a) + Lower(b))[i];
  }

  /** A string with no upper-case ASCII letter is its own lower-case form. */
  lemma LowerOfLowercase(s: string)
    requires forall i :: 0 <= i < |s| ==> !IsUpperAscii(s[i])
    ensures Lower(s) == s
  {
  }
}

=== FILE: guide_profile.dfy ===
/** The guide profile page (`TourGuideProfile`): the 1-to-5 rating picker and
    the review submit, which appends the review to the shown guide. */
module GuideProfile {
  import opened Base
  import opened Identity

  const LoginNeeded: string := "You need to be logged in to submit a review."
  const Submitted: string := "Review submitted successfully"
  const SubmitFailed: string := "Error submitting review"

  /** The values of the radio buttons. */
  const RatingChoices: seq<int> := [1, 2, 3, 4, 5]

  datatype Review = Review(rating: int, comment: string, email: string)

  /** The shown guide: its other fields, and its reviews (absent when the
      record has none). */
  datatype Guide = Guide(fields: map<string, string>, reviews: Option<seq<Review>>)

  datatype State = State(guide: Option<Guide>, rating: int, comment: string)

  datatype Toast = Success(text: string) | Error(text: string)

  /** A rating the page can hold: 0 (nothing picked) or one of the choices. */
  predicate RatingInRange(r: int) {
    0 <= r <= 5
  }

  function Init(guide: Option<Guide>): (s: State)
    ensures s.rating == 0 && s.comment == "" && RatingInRange(s.rating)
  {
    State(guide, 0, "")
  }

  /** A radio's `onChange`: the rating becomes that radio's value. */
  function PickRating(s: State, radio: nat): (s': State)
    requires radio < |RatingChoices|
    ensures s'.rating == radio + 1 && RatingInRange(s'.rating)
    ensures s' == s.(rating := s'.rating)
  {
    s.(rating := RatingChoices[radio])
  }

  /** `handleReviewSubmit()`. Without a user nothing is posted or changed.
      Otherwise `{rating, comment, email}` is posted; on success it is
      appended to the guide's reviews (a missing list counts as empty) and the
      picker and the comment are cleared. The form is rendered only once the
      guide is there. */
  function SubmitReview(s: State, user: Option<User>, reply: Outcome): (r: (State, Option<Review>, Toast))
    requires s.guide.Some?
    ensures user.None? ==> r == (s, None, Error(LoginNeeded))
    ensures user.Some? ==> r.1 == Some(Review(s.rating, s.comment, user.value.account.email))
    ensures user.Some? && reply.Failed? ==> r.0 == s && r.2 == Error(SubmitFailed)
    ensures user.Some? && reply.Done? ==>
              r.0.rating == 0 && r.0.comment == "" && r.2 == Success(Submitted)
              && r.0.guide.Some? && r.0.guide.value.reviews.Some?
              && r.0.guide.value.reviews.value ==
                   (if s.guide.value.reviews.Some? then s.guide.value.reviews.value else []) + [r.1.value]
    ensures user.Some? && reply.Done? ==> r.0.guide.value.fields == s.guide.value.fields
    ensures RatingInRange(s.rating) ==> RatingInRange(r.0.rating)
  {
    match user
    case None => (s, None, Error(LoginNeeded))
    case Some(u) =>
      var review := Review(s.rating, s.comment, u.account.email);
      if reply.Failed? then (s, Some(review), Error(SubmitFailed))
      else
        var g := s.guide.value;
        var guide := g.(reviews := Some((if g.reviews.Some? then g.reviews.value else []) + [review]));
        (State(Some(guide), 0, ""), Some(review), Success(Submitted))
  }

  /** Every posted review carries a rating in range, whatever sequence of
      picks led to it, and a successful submit adds exactly one review. */
  lemma SubmittedReviewCount(s: State, user: User)
    requires s.guide.Some? && s.guide.value.reviews.Some?
    ensures var (s', _, _) := SubmitReview(s, Some(user), Done);
            |s'.guide.value.reviews.value| == |s.guide.value.reviews.value| + 1
            && s'.guide.value.reviews.value[..|s.guide.value.reviews.value|] == s.guide.value.reviews.value
  {
  }

  /** Picking any radio and submitting posts a rating between 1 and 5. */
  lemma PickedRatingIsPosted(s: State, radio: nat, user: User, reply: Outcome)
    requires s.guide.Some?
    requires radio < |RatingChoices|
    ensures var posted := SubmitReview(PickRating(s, radio), Some(user), reply).1;
            posted.Some? && 1 <= posted.value.rating <= 5
  {
  }
}

=== FILE: header.dfy ===
/** The site header (`Header`): the persisted light/dark theme, the dashboard
    link of the signed-in user and the sign-out button. */
module Header {
  import opened Base
  import opened Identity
  import Session
  import Routes

  const ThemeKey: string := "theme"
  const Dark: string := "dark"
  const Light: string := "light"

  /** The first `darkMode`: the stored theme is exactly `dark`. */
  predicate InitialDarkMode(storage: Session.Storage) {
    ThemeKey in storage && storage[ThemeKey] == Dark
  }

  /** The theme effect: store `dark` or `light` for the current mode. */
  function PersistTheme(storage: Session.Storage, darkMode: bool): (r: Session.Storage)
    ensures ThemeKey in r && (r[ThemeKey] == Dark <==> darkMode)
    ensures r[ThemeKey] == Dark || r[ThemeKey] == Light
    ensures forall k :: k != ThemeKey ==> (k in r <==> k in storage)
    ensures forall k :: k != ThemeKey && k in r ==> r[k] == storage[k]
  {
    storage[ThemeKey := if darkMode then Dark else Light]
  }

  /** Reloading the page restores the mode that was last stored. */
  lemma ThemeRoundTrip(storage: Session.Storage, darkMode: bool)
    ensures InitialDarkMode(PersistTheme(storage, darkMode)) == darkMode
  {
  }

  /** `toggleTheme()`. */
  function ToggleTheme(darkMode: bool): (r: bool)
    ensures r != darkMode
  {
    !darkMode
  }

  /** Toggling twice gives back the mode, and what is stored after it. */
  lemma ToggleThemeTwice(storage: Session.Storage, darkMode: bool)
    ensures ToggleTheme(ToggleTheme(darkMode)) == darkMode
    ensures PersistTheme(PersistTheme(storage, ToggleTheme(darkMode)), ToggleTheme(ToggleTheme(darkMode)))
            == PersistTheme(storage, darkMode)
  {
  }

  /** The dashboard link is shown for a user whose role is set, and points at
      the lower-cased role's dashboard. */
  function DashboardLink(user: User): (link: Option<string>)
    ensures link.Some? <==> TruthyOpt(user.role)
    ensures link.Some? ==> link.value == "/" + Lower(user.role.value) + "/dashboard"
  {
    if TruthyOpt(user.role) then Some("/" + Lower(user.role.value) + "/dashboard") else None
  }

  /** The link of a role the route table knows splits into that role and
      `dashboard`. */
  lemma LinkSegments(role: string)
    requires IsKnownRole(role)
    ensures Routes.Segments("/" + role + "/dashboard") == [role, "dashboard"]
  {
    assert |role| > 0 && forall k :: 0 <= k < |role| ==> role[k] != '/';
    assert forall k :: 0 <= k < |"dashboard"| ==> "dashboard"[k] != '/';
    Routes.SplitTwo(role, "dashboard");
    assert "/" + role + "/dashboard" == "/" + role + "/" + "dashboard";
  }

  /** The dashboard path of a known role resolves to that role's dashboard,
      and the guard admits a user whose role lower-cases to it. */
  lemma LinkAdmits(role: string, user: User)
    requires IsKnownRole(role)
    requires user.role.Some? && Lower(user.role.value) == role
    ensures Routes.ProtectionOf(Routes.Resolve([role, "dashboard"])) == Routes.Guarded(Some([role]))
    ensures Routes.Visit("/" + role + "/dashboard", false, Some(user)) == Routes.Show(Routes.Resolve([role, "dashboard"]))
  {
    var path := "/" + role + "/dashboard";
    var segs := [role, "dashboard"];
    LinkSegments(role);
    LowerOfLowercase("dashboard");
    assert Lower(role) == role by {
      LowerIdempotent(user.role.value);
    }
    Routes.DashboardAdmitsOnlyItsRole(segs, role, path, user);
    assert Routes.Visit(path, false, Some(user)) == Routes.VisitSegments(Routes.Segments(path), path, false, Some(user));
  }

  /** For every user whose role is one of the three the route table knows,
      in any letter case, the dashboard link leads to that role's dashboard
      and the route guard lets the user in. */
  lemma DashboardLinkIsAdmitted(user: User)
    requires user.role.Some? && IsKnownRole(Lower(user.role.value))
    ensures DashboardLink(user).Some?
    ensures var segs := Routes.Segments(DashboardLink(user).value);
            segs == [Lower(user.role.value), "dashboard"]
            && Routes.ProtectionOf(Routes.Resolve(segs)) == Routes.Guarded(Some([Lower(user.role.value)]))
            && Routes.Visit(DashboardLink(user).value, false, Some(user)) == Routes.Show(Routes.Resolve(segs))
  {
    var role := Lower(user.role.value);
    assert DashboardLink(user) == Some("/" + role + "/dashboard");
    LinkSegments(role);
    LinkAdmits(role, user);
  }

  /** `handleSignOut()`: sign out through the session, then remove the stored
      token. When sign-out fails nothing is removed. The button's own spinner
      is off afterwards either way. */
  function HandleSignOut(s: Session.State, signedOut: Outcome): (r: (Session.State, bool))
    ensures !r.1
    ensures signedOut.Done? ==> Session.SignedOut(r.0) && Session.TokenKey !in r.0.storage
    ensures signedOut.Failed? ==> r.0.storage == s.storage && r.0.user == s.user
    // the stored theme and every other entry besides the token survive sign-out
    ensures signedOut.Done? ==> r.0.storage == s.storage - {Session.TokenKey}
  {
    var (s', _) := Session.LogOut(s, signedOut);
    if signedOut.Done? then (s'.(storage := s'.storage - {Session.TokenKey}), false) else (s', false)
  }

  /** Signing out through the header keeps the default header and the stored
      token in agreement, whether the sign-out succeeds or fails. */
  lemma SignOutKeepsAgreement(s: Session.State, signedOut: Outcome)
    requires Session.TokenAgreement(s)
    ensures Session.TokenAgreement(HandleSignOut(s, signedOut).0)
  {
  }
}

=== FILE: identity.dfy ===
/** The user records the session provider holds and the role names the code
    spells out. */
module Identity {
  import opened Base

  /** The fields of the identity service's user object that the views read. */
  datatype Account = Account(uid: string, email: string, displayName: string, photoURL: string)

  /** The session user `{ ...currentUser, role }`: the identity-service account
      plus the role fetched from the backend, `null` when the fetch failed or
      the profile has none. */
  datatype User = User(account: Account, role: Option<string>)

  /** Role names exactly as the route table and the admin filter spell them. */
  const AdminRole: string := "admin"
  const TouristRole: string := "tourist"
  const TourGuideRole: string := "tourguide"

  /** The three role names the route table knows. */
  predicate IsKnownRole(r: string) {
    r == AdminRole || r == TouristRole || r == TourGuideRole
  }
}

=== FILE: list_ops.dfy ===
/** The two list updates every view performs on its React state after a
    successful request: `list.map(x => matches(x) ? f(x) : x)` and
    `list.filter(x => !drop(x))`. */
module ListOps {

  /** `xs.map(x => matches(x) ? f(x) : x)`: only matching elements change. */
  function MapWhere<T>(xs: seq<T>, matches: T -> bool, f: T -> T): (r: seq<T>)
    ensures |r| == |xs|
    ensures forall i :: 0 <= i < |xs| && matches(xs[i]) ==> r[i] == f(xs[i])
    ensures forall i :: 0 <= i < |xs| && !matches(xs[i]) ==> r[i] == xs[i]
  {
    if |xs| == 0 then []
    else [if matches(xs[0]) then f(xs[0]) else xs[0]] + MapWhere(xs[1..], matches, f)
  }

  /** `xs.filter(x => !drop(x))`: every dropped element is gone and every
      kept element keeps its number of occurrences. */
  function FilterOut<T(!new)>(xs: seq<T>, drop: T -> bool): (r: seq<T>)
    ensures |r| <= |xs|
    ensures forall x :: x in r ==> x in xs && !drop(x)
    ensures forall x :: !drop(x) ==> multiset(r)[x] == multiset(xs)[x]
  {
    if |xs| == 0 then []
    else
      assert xs == [xs[0]] + xs[1..];
      (if drop(xs[0]) then [] else [xs[0]]) + FilterOut(xs[1..], drop)
  }

  /** Filtering keeps the relative order: it distributes over concatenation. */
  lemma {:induction false} FilterOutAppend<T(!new)>(a: seq<T>, b: seq<T>, drop: T -> bool)
    ensures FilterOut(a + b, drop) == FilterOut(a, drop) + FilterOut(b, drop)
  {
    if |a| == 0 {
      assert a + b == b;
    } else {
      assert (a + b)[1..] == a[1..] + b;
      FilterOutAppend(a[1..], b, drop);
    }
  }

  /** Filtering a list none of whose elements is dropped changes nothing. */
  lemma {:induction false} FilterOutNoneDropped<T(!new)>(xs: seq<T>, drop: T -> bool)
    requires forall i :: 0 <= i < |xs| ==> !drop(xs[i])
    ensures FilterOut(xs, drop) == xs
  {
    if |xs| > 0 {
      FilterOutNoneDropped(xs[1..], drop);
    }
  }
}

=== FILE: manage_users.dfy ===
/** The admin's user table (`ManageUsers`): the query sent for a search and a
    role filter, the role change and the request decision applied to the
    fetched list, and which action buttons each row offers. */
module ManageUsers {
  import opened Base
  import opened Identity
  import ListOps

  /** A row of the table. `role` is absent when the profile has none. */
  datatype Row = Row(id: string, name: string, email: string, role: Option<string>, requestRole: Option<string>)

  /** The view's state: the fetched rows, the spinner flag and the
      confirmation modal with the row and action it was opened for. */
  datatype State = State(rows: seq<Row>, loading: bool, modalOpen: bool, selected: Option<Row>, actionType: string)

  /** The calls the view makes to `/api/users/:id/request`, in order. */
  datatype Patch = PatchRole(id: string, role: Option<string>) | PatchDecision(id: string, decision: string)

  const ApproveAction: string := "approve"
  const DeclineAction: string := "decline"
  const Approved: string := "approved"
  const Declined: string := "declined"

  // ---------------------------------------------------------------------------
  // Search and filter
  // ---------------------------------------------------------------------------

  /** The search box stores what was typed, lower-cased. */
  function HandleSearch(typed: string): (search: string)
    ensures |search| == |typed|
    ensures forall k :: 0 <= k < |search| ==> !IsUpperAscii(search[k])
    ensures forall k :: 0 <= k < |typed| && !IsUpperAscii(typed[k]) ==> search[k] == typed[k]
    ensures forall k :: 0 <= k < |typed| && IsUpperAscii(typed[k]) ==> search[k] as int == typed[k] as int + 32
  {
    Lower(typed)
  }

  /** Storing the search again changes nothing: the stored text is a fixed point. */
  lemma HandleSearchIdempotent(typed: string)
    ensures HandleSearch(HandleSearch(typed)) == HandleSearch(typed)
  {
    LowerIdempotent(typed);
  }

  /** Typing one more character extends the stored search by that character,
      lower-cased: the stored text follows the typed text keystroke by keystroke. */
  lemma HandleSearchKeystroke(typed: string, c: char)
    ensures HandleSearch(typed + [c]) == HandleSearch(typed) + [LowerChar(c)]
  {
    LowerAppend(typed, [c]);
  }

  /** The values of the role filter's options, in display order. */
  const RoleFilterOptions: seq<string> := ["", TouristRole, TourGuideRole, AdminRole]

  /** Picking an option stores its value; clearing the select stores `''`. */
  function HandleRoleFilterChange(picked: Option<nat>): (filter: string)
    ensures filter == "" || IsKnownRole(filter)
    ensures picked.Some? && picked.value < |RoleFilterOptions| ==> filter == RoleFilterOptions[picked.value]
    ensures picked.None? ==> filter == ""
  {
    if picked.Some? && picked.value < |RoleFilterOptions| then RoleFilterOptions[picked.value] else ""
  }

  /** The query parameters of `GET /api/users`: `search` only when the search
      text is non-empty, `role` only when a role filter is chosen. */
  function QueryParams(search: string, roleFilter: string): (params: map<string, string>)
    ensures "search" in params <==> Truthy(search)
    ensures "role" in params <==> Truthy(roleFilter)
    ensures "search" in params ==> params["search"] == search
    ensures "role" in params ==> params["role"] == roleFilter
    ensures forall k :: k in params ==> k == "search" || k == "role"
  {
    var withSearch := if Truthy(search) then map["search" := search] else map[];
    if Truthy(roleFilter) then withSearch["role" := roleFilter] else withSearch
  }

  /** Choosing "All" (or clearing the select) after a role sends only the search. */
  lemma ClearingFilterDropsRoleParam(search: string, picked: Option<nat>)
    requires picked.None? || picked == Some(0)
    ensures QueryParams(search, HandleRoleFilterChange(picked)) == (if Truthy(search) then map["search" := search] else map[])
  {
  }

  /** A fetch replaces the rows on success and keeps them on failure; the
      spinner is off afterwards either way. */
  function FetchUsers(s: State, reply: Result<seq<Row>>): (s': State)
    ensures !s'.loading
    ensures reply.Ok? ==> s'.rows == reply.value
    ensures reply.Err? ==> s'.rows == s.rows
    ensures s'.modalOpen == s.modalOpen && s'.selected == s.selected
  {
    match reply
    case Ok(rows) => s.(rows := rows, loading := false)
    case Err(_) => s.(loading := false)
  }

  // ---------------------------------------------------------------------------
  // Role change and request decision
  // ---------------------------------------------------------------------------

  /** The local update after a successful role PATCH: the row with that id gets
      the new role and loses its pending request. */
  function ApplyRoleChange(rows: seq<Row>, userId: string, role: Option<string>): (r: seq<Row>)
    ensures |r| == |rows|
    ensures forall i :: 0 <= i < |rows| && rows[i].id == userId ==>
              r[i] == rows[i].(role := role, requestRole := None)
    ensures forall i :: 0 <= i < |rows| && rows[i].id != userId ==> r[i] == rows[i]
  {
    ListOps.MapWhere(rows, (u: Row) => u.id == userId, (u: Row) => u.(role := role, requestRole := None))
  }

  /** The local update after a declined request: the row loses its pending
      request and keeps its role. */
  function ClearRequest(rows: seq<Row>, userId: string): (r: seq<Row>)
    ensures |r| == |rows|
    ensures forall i :: 0 <= i < |rows| && rows[i].id == userId ==> r[i] == rows[i].(requestRole := None)
    ensures forall i :: 0 <= i < |rows| && rows[i].id != userId ==> r[i] == rows[i]
  {
    ListOps.MapWhere(rows, (u: Row) => u.id == userId, (u: Row) => u.(requestRole := None))
  }

  /** `handleRoleChange(userId, role)`: PATCH the role; on success update the
      matching row; the spinner is off afterwards either way. */
  function HandleRoleChange(s: State, userId: string, role: Option<string>, reply: Outcome): (r: (State, seq<Patch>))
    ensures r.1 == [PatchRole(userId, role)]
    ensures !r.0.loading
    ensures reply.Failed? ==> r.0.rows == s.rows
    ensures |r.0.rows| == |s.rows|
    ensures forall i :: 0 <= i < |s.rows| && s.rows[i].id != userId ==> r.0.rows[i] == s.rows[i]
    ensures reply.Done? ==> forall i :: 0 <= i < |s.rows| && s.rows[i].id == userId ==>
              r.0.rows[i].role == role && r.0.rows[i].requestRole.None?
    // the matching rows keep their other fields, and nothing but rows and spinner changes
    ensures reply.Done? ==> r.0 == s.(rows := ApplyRoleChange(s.rows, userId, role), loading := false)
    ensures reply.Failed? ==> r.0 == s.(loading := false)
  {
    var rows := if reply.Done? then ApplyRoleChange(s.rows, userId, role) else s.rows;
    (s.(rows := rows, loading := false), [PatchRole(userId, role)])
  }

  /** `openModal(user, type)`. */
  function OpenModal(s: State, row: Row, actionType: string): (s': State)
    ensures s'.modalOpen && s'.selected == Some(row) && s'.actionType == actionType
    ensures s'.rows == s.rows
  {
    s.(modalOpen := true, selected := Some(row), actionType := actionType)
  }

  /** `closeModal()`. */
  function CloseModal(s: State): (s': State)
    ensures !s'.modalOpen && s'.selected.None? && s'.actionType == ""
    ensures s'.rows == s.rows
  {
    s.(modalOpen := false, selected := None, actionType := "")
  }

  /** The decision the modal's "Yes" button sends for its action type. */
  function DecisionOf(actionType: string): (decision: string)
    ensures decision == Approved <==> actionType == ApproveAction
    ensures decision == Approved || decision == Declined
  {
    if actionType == ApproveAction then Approved else Declined
  }

  /** `handleRequestDecision(decision)`. Without a selected row nothing
      happens. Otherwise the decision is PATCHed; on success an approval
      re-runs the role change with the row's requested role (a second PATCH,
      whose outcome is `roleReply`) and a decline clears the request; the
      modal closes on success and on failure, and the spinner is off. */
  function HandleRequestDecision(s: State, decision: string, decisionReply: Outcome, roleReply: Outcome): (r: (State, seq<Patch>))
    ensures s.selected.None? ==> r == (s, [])
    ensures s.selected.Some? ==> |r.1| >= 1 && r.1[0] == PatchDecision(s.selected.value.id, decision)
    ensures s.selected.Some? ==> !r.0.modalOpen && !r.0.loading
    ensures s.selected.Some? && decisionReply.Failed? ==> r.0.rows == s.rows && |r.1| == 1
    ensures s.selected.Some? && decisionReply.Done? && decision == Approved ==>
              r.1 == [PatchDecision(s.selected.value.id, decision), PatchRole(s.selected.value.id, s.selected.value.requestRole)]
    ensures s.selected.Some? && decisionReply.Done? && decision == Approved && roleReply.Done? ==>
              r.0.rows == ApplyRoleChange(s.rows, s.selected.value.id, s.selected.value.requestRole)
    ensures s.selected.Some? && decisionReply.Done? && decision == Approved && roleReply.Failed? ==>
              r.0.rows == s.rows
    // the modal closes but keeps its selected row and action type, as `closeModal` is not called
    ensures s.selected.Some? ==> r.0 == s.(rows := r.0.rows, modalOpen := false, loading := false)
    ensures s.selected.Some? && decisionReply.Done? && decision != Approved ==>
              r.0.rows == ClearRequest(s.rows, s.selected.value.id) && |r.1| == 1
    // whatever happens, only the selected row can change
    ensures |r.0.rows| == |s.rows|
    ensures forall i :: 0 <= i < |s.rows| && (s.selected.None? || s.rows[i].id != s.selected.value.id) ==> r.0.rows[i] == s.rows[i]
  {
    match s.selected
    case None => (s, [])
    case Some(row) =>
      var first := PatchDecision(row.id, decision);
      if decisionReply.Failed? then
        (s.(modalOpen := false, loading := false), [first])
      else if decision == Approved then
        var (s', calls) := HandleRoleChange(s, row.id, row.requestRole, roleReply);
        (s'.(modalOpen := false, loading := false), [first] + calls)
      else
        (s.(rows := ClearRequest(s.rows, row.id), modalOpen := false, loading := false), [first])
  }

  /** A declined request leaves every role as it was and clears the request of
      the selected user. */
  lemma DeclineKeepsRoles(s: State, decisionReply: Outcome, roleReply: Outcome)
    requires s.selected.Some? && decisionReply.Done?
    ensures var (s', _) := HandleRequestDecision(s, Declined, decisionReply, roleReply);
            (forall i :: 0 <= i < |s.rows| ==> s'.rows[i].role == s.rows[i].role)
            && (forall i :: 0 <= i < |s.rows| && s.rows[i].id == s.selected.value.id ==> s'.rows[i].requestRole.None?)
  {
  }

  /** Approving through the modal gives the selected user the role they asked
      for, and the pending request disappears. */
  lemma ApproveGrantsRequestedRole(s: State, row: Row)
    requires TruthyOpt(row.requestRole)
    ensures var modal := OpenModal(s, row, ApproveAction);
            var (s', calls) := HandleRequestDecision(modal, DecisionOf(modal.actionType), Done, Done);
            calls == [PatchDecision(row.id, Approved), PatchRole(row.id, row.requestRole)]
            && (forall i :: 0 <= i < |s.rows| && s.rows[i].id == row.id ==>
                  s'.rows[i].role == row.requestRole && s'.rows[i].requestRole.None?)
            && !s'.modalOpen
  {
  }

  // ---------------------------------------------------------------------------
  // Row actions
  // ---------------------------------------------------------------------------

  /** The "Actions" cell. `RoleMissing` is the row whose profile has no role:
      `user.role.toLowerCase()` throws there and the table fails to render. */
  datatype ActionCell = AlreadyAdmin | Buttons(makeAdminDisabled: bool, makeGuideDisabled: bool) | RoleMissing

  function ActionsOf(u: Row): (c: ActionCell)
    ensures c == RoleMissing <==> u.role.None?
    ensures c == AlreadyAdmin <==> u.role.Some? && Lower(u.role.value) == AdminRole
    ensures c.Buttons? ==> (c.makeAdminDisabled <==> TruthyOpt(u.requestRole))
    ensures c.Buttons? ==> (c.makeGuideDisabled <==> Lower(u.role.value) == TourGuideRole || TruthyOpt(u.requestRole))
  {
    match u.role
    case None => RoleMissing
    case Some(role) =>
      if Lower(role) == AdminRole then AlreadyAdmin
      else Buttons(Lower(role) == AdminRole || TruthyOpt(u.requestRole),
                   Lower(role) == TourGuideRole || TruthyOpt(u.requestRole))
  }

  /** The "Request" cell offers Approve and Decline iff a request is pending. */
  predicate OffersDecision(u: Row) {
    TruthyOpt(u.requestRole)
  }

  /** A user with a pending request can be neither promoted directly nor made a
      guide; the only way forward is the request's own decision. */
  lemma PendingRequestBlocksDirectChange(u: Row)
    requires u.role.Some? && OffersDecision(u)
    ensures ActionsOf(u) == AlreadyAdmin || ActionsOf(u) == Buttons(true, true)
  {
  }

  /** After a successful role change the row offers no decision any more, and
      its buttons reflect the new role. */
  lemma RoleChangeSettlesRow(s: State, userId: string, role: string, i: int)
    requires 0 <= i < |s.rows| && s.rows[i].id == userId
    ensures var (s', _) := HandleRoleChange(s, userId, Some(role), Done);
            !OffersDecision(s'.rows[i])
            && (Lower(role) == AdminRole <==> ActionsOf(s'.rows[i]) == AlreadyAdmin)
            && (Lower(role) == TourGuideRole ==> ActionsOf(s'.rows[i]) == Buttons(false, true))
  {
    var (s', _) := HandleRoleChange(s, userId, Some(role), Done);
    var u := s'.rows[i];
    assert u.role == Some(role) && u.requestRole.None?;
    if Lower(role) == TourGuideRole {
      assert Lower(role) != AdminRole by { assert Lower(role)[0] == 't'; }
    }
  }
}

=== FILE: my_bookings.dfy ===
/** The tourist's bookings table (`MyBookings`): the fetch and the discount it
    unlocks, cancelling, the per-status actions and which row is shown at the
    discounted price. */
module MyBookings {
  import opened Base
  import opened Identity
  import Paging
  import ListOps

  const InReview: string := "In Review"
  const Accepted: string := "Accepted"

  /** The number of fetched bookings from which the discount applies. */
  const DiscountThreshold: nat := 3
  /** The index, in the whole list, of the one booking shown discounted. */
  const DiscountedIndex: nat := 3

  /** A booking joined with its package's name, guide and price. */
  datatype Booking = Booking(id: string, packageId: string, packageName: string, guide: string, price: int, status: string)

  datatype State = State(bookings: seq<Booking>, loading: bool, discount: bool, confetti: bool)

  function Init(): (s: State)
    ensures s.loading && !s.discount && s.bookings == []
  {
    State([], true, false, false)
  }

  /** The fetch effect. It runs only for a user with an email; the joined list
      (or the first failure) is `reply`. A list of at least three bookings turns
      the discount on; nothing turns it off. */
  function FetchBookings(s: State, user: Option<User>, reply: Result<seq<Booking>>): (s': State)
    ensures !(user.Some? && Truthy(user.value.account.email)) ==> s' == s
    ensures user.Some? && Truthy(user.value.account.email) ==> !s'.loading
    ensures reply.Ok? && user.Some? && Truthy(user.value.account.email) ==>
              s'.bookings == reply.value && (s'.discount <==> s.discount || |reply.value| >= DiscountThreshold)
    ensures reply.Err? ==> s'.bookings == s.bookings && s'.discount == s.discount
  {
    if user.Some? && Truthy(user.value.account.email) then
      match reply
      case Ok(data) =>
        if |data| >= DiscountThreshold then s.(bookings := data, discount := true, confetti := true, loading := false)
        else s.(bookings := data, loading := false)
      case Err(_) => s.(loading := false)
    else s
  }

  /** Without an email the view keeps its spinner for good. */
  lemma NoEmailKeepsSpinner(user: Option<User>, reply: Result<seq<Booking>>)
    requires user.None? || user.value.account.email == ""
    ensures FetchBookings(Init(), user, reply).loading
  {
  }

  /** From the first render, the discount is on exactly when the fetch brought
      at least three bookings. */
  lemma DiscountIffThreeBookings(user: User, data: seq<Booking>)
    requires Truthy(user.account.email)
    ensures FetchBookings(Init(), Some(user), Ok(data)).discount <==> |data| >= DiscountThreshold
  {
  }

  /** `handleCancel(id)`: DELETE the booking, then drop every booking with that
      id. A failed DELETE changes nothing. The discount flag is not revisited. */
  function HandleCancel(s: State, bookingId: string, reply: Outcome): (s': State)
    ensures s'.discount == s.discount && s'.loading == s.loading
    ensures reply.Failed? ==> s' == s
    ensures reply.Done? ==> forall b :: b in s'.bookings ==> b in s.bookings && b.id != bookingId
    ensures reply.Done? ==> forall b: Booking :: b.id != bookingId ==> multiset(s'.bookings)[b] == multiset(s.bookings)[b]
  {
    if reply.Done? then s.(bookings := ListOps.FilterOut(s.bookings, (b: Booking) => b.id == bookingId)) else s
  }

  /** Cancelling keeps the other bookings in their order: cancelling in a list
      made of two parts cancels in each part. */
  lemma CancelKeepsOrder(s: State, front: seq<Booking>, back: seq<Booking>, bookingId: string)
    requires s.bookings == front + back
    ensures HandleCancel(s, bookingId, Done).bookings ==
              HandleCancel(s.(bookings := front), bookingId, Done).bookings
              + HandleCancel(s.(bookings := back), bookingId, Done).bookings
  {
    ListOps.FilterOutAppend(front, back, (b: Booking) => b.id == bookingId);
  }

  /** Cancelling an id no booking has changes nothing. */
  lemma CancelUnknownId(s: State, bookingId: string)
    requires forall i :: 0 <= i < |s.bookings| ==> s.bookings[i].id != bookingId
    ensures HandleCancel(s, bookingId, Done) == s
  {
    ListOps.FilterOutNoneDropped(s.bookings, (b: Booking) => b.id == bookingId);
  }

  /** The discount outlives the bookings that earned it: after cancelling down
      to fewer than three, it is still on. */
  lemma DiscountSurvivesCancel(user: User, data: seq<Booking>, bookingId: string)
    requires Truthy(user.account.email) && |data| >= DiscountThreshold
    ensures HandleCancel(FetchBookings(Init(), Some(user), Ok(data)), bookingId, Done).discount
  {
  }

  /** What row `j` of page `page` shows. `bookings.indexOf(booking)` compares
      objects, and every row is its own object, so it is the row's index in the
      whole list. */
  datatype RowView = RowView(booking: Booking, discounted: bool, cancel: bool, pay: bool)

  function Row(s: State, page: int, j: nat): (r: RowView)
    requires page >= 1 && j < |Paging.PageOf(s.bookings, page)|
    ensures r.booking == s.bookings[(page - 1) * Paging.PageSize + j]
    ensures r.discounted <==> s.discount && page == 1 && j == DiscountedIndex
    ensures r.cancel <==> r.booking.status == InReview
    ensures r.pay <==> r.booking.status == Accepted
    ensures !(r.cancel && r.pay)
  {
    var index := (page - 1) * Paging.PageSize + j;
    var b := Paging.PageOf(s.bookings, page)[j];
    RowView(b, s.discount && index == DiscountedIndex, b.status == InReview, b.status == Accepted)
  }

  /** Some row of some page is shown discounted iff the discount is on and
      there are at least four bookings: it is always the fourth one. */
  lemma DiscountedRowExists(s: State)
    ensures (exists page, j :: 1 <= page && 0 <= j < |Paging.PageOf(s.bookings, page)| && Row(s, page, j).discounted)
            <==> s.discount && |s.bookings| > DiscountedIndex
  {
    if s.discount && |s.bookings| > DiscountedIndex {
      assert 0 <= DiscountedIndex < |Paging.PageOf(s.bookings, 1)|;
      assert Row(s, 1, DiscountedIndex).discounted;
    }
  }
}

=== FILE: package_details.dfy ===
/** The package details page (`PackageDetailsPage`): the day-by-day accordion,
    the loading gate, the redirect of signed-out visitors and the booking
    request. */
module PackageDetails {
  import opened Base
  import opened Identity

  const LoginPath: string := "/login"

  // ---------------------------------------------------------------------------
  // Accordion
  // ---------------------------------------------------------------------------

  /** `toggleDay(i)`: closes day `i` if it is the open one, otherwise opens
      it (closing any other). `openDay` is `null` or one index, so at most one
      day is ever open. */
  function ToggleDay(openDay: Option<nat>, i: nat): (r: Option<nat>)
    ensures r == Some(i) <==> openDay != Some(i)
    ensures r.None? <==> openDay == Some(i)
  {
    if openDay == Some(i) then None else Some(i)
  }

  /** Day `i` shows its text iff it is the open day. */
  predicate ShowsInfo(openDay: Option<nat>, i: nat) {
    openDay == Some(i)
  }

  /** The marker on day `i`'s button. */
  function Marker(openDay: Option<nat>, i: nat): (m: string)
    ensures m == "-" <==> ShowsInfo(openDay, i)
    ensures m == "-" || m == "+"
  {
    if openDay == Some(i) then "-" else "+"
  }

  /** After a toggle of day `i`, day `i` is the only one showing its text if it
      was closed, and no day shows text if it was open. */
  lemma ToggleShowsOnlyThatDay(openDay: Option<nat>, i: nat, j: nat)
    ensures ShowsInfo(ToggleDay(openDay, i), j) <==> j == i && openDay != Some(i)
  {
  }

  /** Toggling the same day twice restores the accordion when it started with
      all days closed or with that day open; from another open day it ends with
      all days closed. */
  lemma ToggleTwice(openDay: Option<nat>, i: nat)
    ensures openDay.None? || openDay == Some(i) ==> ToggleDay(ToggleDay(openDay, i), i) == openDay
    ensures openDay.Some? && openDay != Some(i) ==> ToggleDay(ToggleDay(openDay, i), i).None?
  {
  }

  // ---------------------------------------------------------------------------
  // Page state
  // ---------------------------------------------------------------------------

  datatype Package = Package(id: string, packageName: string, tourPlan: seq<string>)

  datatype Screen = Spinner | Details(pkg: Package, user: User)

  /** The page waits until both the package and the user are there. */
  function View(details: Option<Package>, user: Option<User>): (v: Screen)
    ensures v.Details? <==> details.Some? && user.Some?
    ensures v.Details? ==> v.pkg == details.value && v.user == user.value
  {
    if details.Some? && user.Some? then Details(details.value, user.value) else Spinner
  }

  /** The identity-service listener of the page: a signed-out visitor is sent
      to the login page with a full page load. */
  function OnAuthChange(current: Option<Account>): (location: Option<string>)
    ensures location.Some? <==> current.None?
    ensures location.Some? ==> location.value == LoginPath
  {
    if current.None? then Some(LoginPath) else None
  }

  /** The body of `POST /api/bookings`. */
  datatype Booking = Booking(packageId: string, email: string, startDate: int, guide: string)

  /** `handleBooking`: post the booking for the route's package, the signed-in
      user's email, the picked date and the picked guide; the confirmation
      modal opens only when the post succeeds. The form exists only once the
      user is there (see `View`). */
  function HandleBooking(modalOpen: bool, id: string, user: User, startDate: int, guide: string, reply: Outcome): (r: (Booking, bool))
    ensures r.0.packageId == id && r.0.email == user.account.email
    ensures r.0.startDate == startDate && r.0.guide == guide
    ensures r.1 <==> reply.Done? || modalOpen
  {
    (Booking(id, user.account.email, startDate, guide), if reply.Done? then true else modalOpen)
  }

  /** Starting from a closed modal, it is open after booking iff the post succeeded. */
  lemma ModalOnlyAfterSuccess(id: string, user: User, startDate: int, guide: string, reply: Outcome)
    ensures HandleBooking(false, id, user, startDate, guide, reply).1 <==> reply.Done?
  {
  }

  /** One booking attempt from the form: the picked date, the picked guide and
      the reply to the post. */
  datatype Attempt = Attempt(startDate: int, guide: string, reply: Outcome)

  /** The modal after a run of booking attempts on the same page. */
  function ModalAfter(modalOpen: bool, id: string, user: User, attempts: seq<Attempt>): bool
    decreases |attempts|
  {
    if |attempts| == 0 then modalOpen
    else
      var a := attempts[0];
      ModalAfter(HandleBooking(modalOpen, id, user, a.startDate, a.guide, a.reply).1, id, user, attempts[1..])
  }

  /** Nothing on the page closes the modal by booking: after any run of
      attempts it is open iff it was open before or some post succeeded. */
  lemma {:induction false} ModalOpenIffSomeBookingSucceeded(modalOpen: bool, id: string, user: User, attempts: seq<Attempt>)
    ensures ModalAfter(modalOpen, id, user, attempts) <==>
              modalOpen || exists i :: 0 <= i < |attempts| && attempts[i].reply.Done?
    decreases |attempts|
  {
    if |attempts| > 0 {
      var a := attempts[0];
      var m := HandleBooking(modalOpen, id, user, a.startDate, a.guide, a.reply).1;
      ModalOpenIffSomeBookingSucceeded(m, id, user, attempts[1..]);
      assert forall i :: 1 <= i < |attempts| ==> attempts[i] == attempts[1..][i - 1];
      if exists i :: 0 <= i < |attempts[1..]| && attempts[1..][i].reply.Done? {
        var i :| 0 <= i < |attempts[1..]| && attempts[1..][i].reply.Done?;
        assert attempts[i + 1].reply.Done?;
      }
    }
  }
}

=== FILE: paging.dfy ===
/** Fixed-size client-side pagination shared by the user, booking, assigned-tour
    and wishlist tables: page `p` shows `list.slice(p*10 - 10, p*10)` and the
    pager offers `Math.ceil(list.length / 10)` numbered buttons. */
module Paging {

  const PageSize: nat := 10

  function Max(a: int, b: int): int { if a < b then b else a }
  function Min(a: int, b: int): int { if a < b then a else b }

  /** Index normalisation of `Array.prototype.slice`: a negative index counts
      from the end, and the result is clamped to `[0, len]`. */
  function SliceIndex(i: int, len: nat): (r: nat)
    ensures r <= len
    ensures 0 <= i <= len ==> r == i
    ensures i > len ==> r == len
  {
    if i < 0 then Max(len + i, 0) else Min(i, len)
  }

  /** `xs.slice(start, end)` with JavaScript's clamping of both indices. */
  function JsSlice<T>(xs: seq<T>, start: int, end: int): (r: seq<T>)
    ensures 0 <= start <= end <= |xs| ==> r == xs[start..end]
    ensures |r| <= |xs|
    ensures 0 <= end ==> |r| <= Max(end - start, 0)
  {
    var from := SliceIndex(start, |xs|);
    var to := SliceIndex(end, |xs|);
    if from < to then xs[from..to] else []
  }

  /** The rows shown on page `page`, computed as the views do:
      `indexOfLast = page * 10`, `indexOfFirst = indexOfLast - 10`. */
  function PageOf<T>(xs: seq<T>, page: int): (r: seq<T>)
    ensures |r| <= PageSize
    ensures page >= 1 ==> forall j :: 0 <= j < |r| ==> (page - 1) * PageSize + j < |xs| && r[j] == xs[(page - 1) * PageSize + j]
    ensures page >= 1 && page * PageSize <= |xs| ==> |r| == PageSize
    ensures page >= 1 && (page - 1) * PageSize < |xs| ==> |r| == Min(|xs|, page * PageSize) - (page - 1) * PageSize
    ensures page >= 1 && (page - 1) * PageSize >= |xs| ==> r == []
  {
    var last := page * PageSize;
    var first := last - PageSize;
    JsSlice(xs, first, last)
  }

  /** `Math.ceil(n / 10)` for a list length `n`. */
  function PageCount(n: nat): (r: nat)
    ensures r * PageSize >= n
    ensures n > 0 ==> (r - 1) * PageSize < n
    ensures n == 0 ==> r == 0
  {
    (n + PageSize - 1) / PageSize
  }

  /** The labels of the pager buttons, `Array.from({length: PageCount(n)}, (_, i) => i + 1)`. */
  function PageNumbers(n: nat): (r: seq<int>)
    ensures |r| == PageCount(n)
    ensures forall i :: 0 <= i < |r| ==> r[i] == i + 1
  {
    seq(PageCount(n), i => i + 1)
  }

  /** Reference definition of pagination: cut the list into consecutive chunks
      of ten, the last one possibly shorter. */
  function Chunks<T>(xs: seq<T>): (r: seq<seq<T>>)
    ensures |r| == PageCount(|xs|)
    ensures forall k :: 0 <= k < |r| ==> 0 < |r[k]| <= PageSize
    decreases |xs|
  {
    if |xs| == 0 then []
    else if |xs| <= PageSize then [xs]
    else [xs[..PageSize]] + Chunks(xs[PageSize..])
  }

  function Flatten<T>(ss: seq<seq<T>>): seq<T>
  {
    if |ss| == 0 then [] else ss[0] + Flatten(ss[1..])
  }

  /** The chunks, read in order, give back the whole list. */
  lemma {:induction false} ChunksFlatten<T>(xs: seq<T>)
    ensures Flatten(Chunks(xs)) == xs
    decreases |xs|
  {
    if |xs| == 0 {
    } else if |xs| <= PageSize {
      assert Flatten(Chunks(xs)) == xs + Flatten([]);
    } else {
      ChunksFlatten(xs[PageSize..]);
      assert Chunks(xs)[1..] == Chunks(xs[PageSize..]);
      assert xs == xs[..PageSize] + xs[PageSize..];
    }
  }

  /** Dropping the first page shifts every later page down by one. */
  lemma PageOfShift<T>(xs: seq<T>, page: int)
    requires page >= 1
    requires |xs| > PageSize
    ensures PageOf(xs, page + 1) == PageOf(xs[PageSize..], page)
  {
    var a := PageOf(xs, page + 1);
    var b := PageOf(xs[PageSize..], page);
    assert |a| == |b|;
    forall j | 0 <= j < |a|
      ensures a[j] == b[j]
    {
      assert a[j] == xs[page * PageSize + j];
    }
  }

  /** Each numbered page the pager offers is exactly the corresponding chunk,
      so the pages partition the list in order. */
  lemma {:induction false} PageOfIsChunk<T>(xs: seq<T>, page: int)
    requires 1 <= page <= PageCount(|xs|)
    ensures PageOf(xs, page) == Chunks(xs)[page - 1]
    decreases |xs|
  {
    if |xs| <= PageSize {
      assert page == 1;
      assert PageOf(xs, 1) == xs;
    } else if page == 1 {
      assert PageOf(xs, 1) == xs[..PageSize];
    } else {
      PageOfShift(xs, page - 1);
      PageOfIsChunk(xs[PageSize..], page - 1);
      assert Chunks(xs)[page - 1] == Chunks(xs[PageSize..])[page - 2];
    }
  }

  /** Every element of the list appears on the page its index determines. */
  lemma ElementOnItsPage<T>(xs: seq<T>, i: int)
    requires 0 <= i < |xs|
    ensures 1 <= i / PageSize + 1 <= PageCount(|xs|)
    ensures i % PageSize < |PageOf(xs, i / PageSize + 1)|
    ensures PageOf(xs, i / PageSize + 1)[i % PageSize] == xs[i]
  {
  }
}

=== FILE: register.dfy ===
/** The registration view: the password rule, the order of the checks and
    calls in `onSubmit`, and the social sign-up handler. */
module Registration {
  import opened Base
  import opened Identity
  import Session

  const PolicyMessage: string := "Password must contain at least 6 characters including at least one uppercase and one lowercase letter."
  const InUseMessage: string := "The email address is already in use by another account."
  const SaveFailedMessage: string := "Failed to save user information to MongoDB."
  const DefaultErrorMessage: string := "An error occurred during registration."
  const RegisteredMessage: string := "Registration successful! Redirecting to login page..."
  const SocialErrorMessage: string := "An error occurred during social sign-up."
  const SocialExistsMessage: string := "User already exists. Redirecting to login page..."
  const LoginPath: string := "/login"

  // ---------------------------------------------------------------------------
  // The password rule `/(?=.*[a-z])(?=.*[A-Z]).{6,}/.test(password)`
  // ---------------------------------------------------------------------------

  /** The characters a regular-expression `.` does not match. */
  predicate IsLineTerminator(c: char) {
    c == '\n' || c == '\r' || c as int == 0x2028 || c as int == 0x2029
  }

  /** `s[from..to]` lies on one line. */
  predicate OneLine(s: string, from: int, to: int)
    requires 0 <= from <= to <= |s|
  {
    forall k :: from <= k < to ==> !IsLineTerminator(s[k])
  }

  /** `(?=.*[a-z])` at position `p`. */
  predicate LowerAhead(s: string, p: int)
    requires 0 <= p <= |s|
  {
    exists k :: p <= k < |s| && OneLine(s, p, k) && IsLowerAscii(s[k])
  }

  /** `(?=.*[A-Z])` at position `p`. */
  predicate UpperAhead(s: string, p: int)
    requires 0 <= p <= |s|
  {
    exists k :: p <= k < |s| && OneLine(s, p, k) && IsUpperAscii(s[k])
  }

  /** The whole pattern matches starting at position `p`. */
  predicate MatchesAt(s: string, p: int)
    requires 0 <= p <= |s|
  {
    LowerAhead(s, p) && UpperAhead(s, p) && p + 6 <= |s| && OneLine(s, p, p + 6)
  }

  /** `RegExp.prototype.test` without anchors: a match at some position. */
  predicate PasswordPatternTest(s: string) {
    exists p :: 0 <= p <= |s| && MatchesAt(s, p)
  }

  /** The rule as the message states it: at least six characters, a lower-case
      and an upper-case letter. */
  predicate PasswordPolicy(s: string) {
    |s| >= 6 && (exists i :: 0 <= i < |s| && IsLowerAscii(s[i])) && (exists i :: 0 <= i < |s| && IsUpperAscii(s[i]))
  }

  /** Every password the pattern accepts meets the stated rule. */
  lemma PatternImpliesPolicy(s: string)
    requires PasswordPatternTest(s)
    ensures PasswordPolicy(s)
  {
    var p :| 0 <= p <= |s| && MatchesAt(s, p);
    var lo :| p <= lo < |s| && OneLine(s, p, lo) && IsLowerAscii(s[lo]);
    var up :| p <= up < |s| && OneLine(s, p, up) && IsUpperAscii(s[up]);
  }

  /** On a password without line breaks the pattern is exactly the stated rule. */
  lemma PatternIsPolicyOnOneLine(s: string)
    requires forall k :: 0 <= k < |s| ==> !IsLineTerminator(s[k])
    ensures PasswordPatternTest(s) <==> PasswordPolicy(s)
  {
    if PasswordPolicy(s) {
      var lo :| 0 <= lo < |s| && IsLowerAscii(s[lo]);
      var up :| 0 <= up < |s| && IsUpperAscii(s[up]);
      assert OneLine(s, 0, lo) && OneLine(s, 0, up) && OneLine(s, 0, 6);
      assert MatchesAt(s, 0);
    }
    if PasswordPatternTest(s) {
      PatternImpliesPolicy(s);
    }
  }

  /** A line break between the letters defeats the pattern although the
      stated rule holds: the letters must share a line with the match. */
  lemma PatternStricterAcrossLines()
    ensures PasswordPolicy("abc\nDEFGHI")
    ensures !PasswordPatternTest("abc\nDEFGHI")
  {
    var s := "abc\nDEFGHI";
    assert IsLowerAscii(s[0]) && IsUpperAscii(s[4]);
    forall p | 0 <= p <= |s|
      ensures !MatchesAt(s, p)
    {
      if p <= 3 {
        forall k | p <= k < |s|
          ensures !(OneLine(s, p, k) && IsUpperAscii(s[k]))
        {
          if k > 3 {
            assert IsLineTerminator(s[3]);
          }
        }
      } else if p == 4 {
        assert forall k :: 4 <= k < |s| ==> !IsLowerAscii(s[k]);
      }
    }
  }

  // ---------------------------------------------------------------------------
  // onSubmit
  // ---------------------------------------------------------------------------

  /** The submitted form. The role field is commented out of the form, so
      `role` is normally absent. */
  datatype Form = Form(email: string, password: string, name: string, photoURL: string, role: Option<string>)

  /** The body of `POST /register`: every form field except the password. */
  datatype Payload = Payload(email: string, name: string, photoURL: string, role: Option<string>)

  /** Calls made by the view, in order. */
  datatype Call =
    | FetchSignInMethods(email: string)
    | PostRegister(payload: Payload)
    | CreateAccount(email: string, password: string, name: string, photoURL: string)
    | GetUserExists(email: string)
    | PostUsers(email: string, name: string, photoURL: string, role: string)

  datatype Toast = SuccessToast(text: string) | ErrorToast(text: string) | InfoToast(text: string)

  /** What a submission does that can be observed: the calls, the toast and
      where it navigates. */
  datatype Submission = Submission(calls: seq<Call>, toast: Toast, navigate: Option<string>)

  /** `error.message || "An error occurred during registration."` */
  function ErrorText(message: string): (t: string)
    ensures Truthy(t)
    ensures Truthy(message) ==> t == message
  {
    if Truthy(message) then message else DefaultErrorMessage
  }

  function PayloadOf(form: Form): (p: Payload)
    ensures p.email == form.email && p.name == form.name && p.photoURL == form.photoURL && p.role == form.role
  {
    Payload(form.email, form.name, form.photoURL, form.role)
  }

  /** `onSubmit` with the session provider's `createUser`. `methods` is the
      number of sign-in methods the identity service reports for the email,
      `saved` is `response.data.success` of the register call. */
  function OnSubmit(s: Session.State, form: Form, methods: Result<nat>, saved: Result<bool>,
                    created: Result<Account>, profileSet: Outcome,
                    roleReply: Result<Option<string>>): (r: (Session.State, Submission))
    // the password rule comes before any call
    ensures !PasswordPatternTest(form.password) ==>
              r == (s, Submission([], ErrorToast(PolicyMessage), None))
    ensures PasswordPatternTest(form.password) ==>
              |r.1.calls| > 0 && r.1.calls[0] == FetchSignInMethods(form.email)
    // an email in use stops before the register call and the account creation
    ensures PasswordPatternTest(form.password) && methods.Ok? && methods.value > 0 ==>
              r == (s, Submission([FetchSignInMethods(form.email)], ErrorToast(InUseMessage), None))
    // the backend never receives the password
    ensures forall i :: 0 <= i < |r.1.calls| && r.1.calls[i].PostRegister? ==> r.1.calls[i].payload == PayloadOf(form)
    // an account is created only after the backend reports success
    ensures forall i :: 0 <= i < |r.1.calls| && r.1.calls[i].CreateAccount? ==>
              i >= 2 && r.1.calls[i - 1] == PostRegister(PayloadOf(form)) && saved == Ok(true)
    // navigation happens only on the full success path, and then to the login view
    ensures r.1.navigate.Some? <==>
              PasswordPatternTest(form.password) && methods == Ok(0) && saved == Ok(true)
              && created.Ok? && profileSet.Done?
    ensures r.1.navigate.Some? ==> r.1.navigate == Some(LoginPath) && r.1.toast == SuccessToast(RegisteredMessage)
    // every failure ends in an error toast
    ensures r.1.navigate.None? ==> r.1.toast.ErrorToast?
    ensures PasswordPatternTest(form.password) && methods == Ok(0) && saved == Ok(false) ==>
              r.1.toast == ErrorToast(SaveFailedMessage)
  {
    if !PasswordPatternTest(form.password) then (s, Submission([], ErrorToast(PolicyMessage), None))
    else
      var c1 := [FetchSignInMethods(form.email)];
      match methods
      case Err(m) => (s, Submission(c1, ErrorToast(ErrorText(m)), None))
      case Ok(n) =>
        if n > 0 then (s, Submission(c1, ErrorToast(InUseMessage), None))
        else
          var c2 := c1 + [PostRegister(PayloadOf(form))];
          match saved
          case Err(m) => (s, Submission(c2, ErrorToast(ErrorText(m)), None))
          case Ok(success) =>
            if !success then (s, Submission(c2, ErrorToast(SaveFailedMessage), None))
            else
              var c3 := c2 + [CreateAccount(form.email, form.password, form.name, form.photoURL)];
              var (s', result) := Session.CreateUser(s, form.name, form.photoURL, created, profileSet, roleReply);
              match result
              case Err(m) => (s', Submission(c3, ErrorToast(ErrorText(m)), None))
              case Ok(_) => (s', Submission(c3, SuccessToast(RegisteredMessage), Some(LoginPath)))
  }

  /** The valid password "Abcdef1" with a fresh email leads to the register
      call, then the account creation, then the login view. */
  lemma SubmitScenario(s: Session.State, account: Account, roleReply: Result<Option<string>>)
    ensures var form := Form("a@b.com", "Abcdef1", "A", "", None);
            OnSubmit(s, form, Ok(0), Ok(true), Ok(account), Done, roleReply).1 ==
              Submission([FetchSignInMethods("a@b.com"), PostRegister(Payload("a@b.com", "A", "", None)),
                          CreateAccount("a@b.com", "Abcdef1", "A", "")],
                         SuccessToast(RegisteredMessage), Some(LoginPath))
  {
    var pw := "Abcdef1";
    assert IsLowerAscii(pw[1]) && IsUpperAscii(pw[0]);
    PatternIsPolicyOnOneLine(pw);
  }

  // ---------------------------------------------------------------------------
  // handleSocialSignUp
  // ---------------------------------------------------------------------------

  /** `handleSocialSignUp(signUpMethod)`. `settled` is what the sign-up method's
      promise settles to: `Ok(None)` when it resolves to a value with no
      `user` (reading `result.user` then throws), `Ok(Some(a))` for a popup
      result. `exists` and `saved` are the backend replies. */
  function HandleSocialSignUp(settled: Result<Option<Account>>, exists_: Result<bool>, saved: Result<bool>): (sub: Submission)
    ensures !(settled.Ok? && settled.value.Some?) ==> sub == Submission([], ErrorToast(SocialErrorMessage), None)
    ensures settled.Ok? && settled.value.Some? ==> |sub.calls| > 0 && sub.calls[0] == GetUserExists(settled.value.value.email)
    // an existing user goes to the login view without any registration call
    ensures settled.Ok? && settled.value.Some? && exists_ == Ok(true) ==>
              sub == Submission([GetUserExists(settled.value.value.email)], InfoToast(SocialExistsMessage), Some(LoginPath))
    // a new user is saved with the tourist role
    ensures forall i :: 0 <= i < |sub.calls| && sub.calls[i].PostUsers? ==> sub.calls[i].role == TouristRole
    ensures sub.navigate.Some? ==> sub.navigate == Some(LoginPath)
    ensures sub.navigate.None? ==> sub.toast == ErrorToast(SocialErrorMessage)
    // the view reaches the login page exactly when the sign-up yields an
    // account that the backend knows or saves
    ensures sub.navigate.Some? <==>
              settled.Ok? && settled.value.Some? && (exists_ == Ok(true) || (exists_ == Ok(false) && saved == Ok(true)))
  {
    match settled
    case Err(_) => Submission([], ErrorToast(SocialErrorMessage), None)
    case Ok(None) => Submission([], ErrorToast(SocialErrorMessage), None)
    case Ok(Some(a)) =>
      var c1 := [GetUserExists(a.email)];
      match exists_
      case Err(_) => Submission(c1, ErrorToast(SocialErrorMessage), None)
      case Ok(true) => Submission(c1, InfoToast(SocialExistsMessage), Some(LoginPath))
      case Ok(false) =>
        var c2 := c1 + [PostUsers(a.email, a.displayName, a.photoURL, TouristRole)];
        match saved
        case Ok(true) => Submission(c2, SuccessToast(RegisteredMessage), Some(LoginPath))
        case _ => Submission(c2, ErrorToast(SocialErrorMessage), None)
  }

  /** As written, the Google button can never complete a social sign-up in
      this view: `signUpWithGoogle` settles to `undefined`, so every attempt
      ends in the error toast without navigation, whatever the identity
      service and the backend reply. */
  lemma GoogleSocialSignUpAlwaysFails(s: Session.State, popup: Result<Account>, existsInProvider: Result<bool>,
                                      registerReply: Outcome, tokenReply: Result<Option<string>>,
                                      roleReply: Result<Option<string>>, exists_: Result<bool>, saved: Result<bool>)
    ensures var settled := Session.SignUpWithGoogle(s, popup, existsInProvider, registerReply, tokenReply, roleReply).2;
            HandleSocialSignUp(settled, exists_, saved) == Submission([], ErrorToast(SocialErrorMessage), None)
  {
  }

  /** With `signUpWithGoogle` returning its result, the Google button reaches
      the login view exactly when the provider's flow completed and the
      backend knows or saves the user. */
  lemma GoogleSocialSignUpFixed(s: Session.State, popup: Result<Account>, existsInProvider: Result<bool>,
                                registerReply: Outcome, tokenReply: Result<Option<string>>,
                                roleReply: Result<Option<string>>, exists_: Result<bool>, saved: Result<bool>)
    ensures var settled := Session.SignUpWithGoogleFixed(s, popup, existsInProvider, registerReply, tokenReply, roleReply).2;
            HandleSocialSignUp(settled, exists_, saved).navigate.Some? <==>
              Session.GoogleFlowCompletes(popup, existsInProvider, registerReply, tokenReply)
              && (exists_ == Ok(true) || (exists_ == Ok(false) && saved == Ok(true)))
  {
  }

  /** The GitHub button reaches the login view exactly when the popup succeeds
      and the backend knows or saves the user. */
  lemma GitHubSocialSignUp(popup: Result<Account>, exists_: Result<bool>, saved: Result<bool>)
    ensures HandleSocialSignUp(Session.SignUpWithGitHub(popup), exists_, saved).navigate.Some? <==>
              popup.Ok? && (exists_ == Ok(true) || (exists_ == Ok(false) && saved == Ok(true)))
  {
  }
}

=== FILE: request_to_admin.dfy ===
/** The tourist's "become a tour guide" page (`RequestToAdmin`): the request
    status read from the profile and the request itself. */
module RequestToAdmin {
  import opened Base
  import opened Identity

  const Sent: string := "Request sent successfully"
  const Refused: string := "Failed to send request"
  const SendFailed: string := "Error sending request"

  /** `requestStatus`: `null` before the profile is read, then `'none'` or `'pending'`. */
  datatype Status = Unknown | NoRequest | Pending

  datatype State = State(status: Status, loading: bool)

  datatype Toast = Success(text: string) | Error(text: string)

  /** The status a profile implies: pending iff its `requestRole` is truthy. */
  function StatusOf(requestRole: Option<string>): Status {
    if TruthyOpt(requestRole) then Pending else NoRequest
  }

  /** The status fetch, for a user with an email; `profile` is the profile's
      `requestRole` or the failure. A failure keeps the status. */
  function FetchStatus(s: State, user: Option<User>, profile: Result<Option<string>>): (s': State)
    ensures !(user.Some? && Truthy(user.value.account.email)) ==> s' == s
    ensures user.Some? && Truthy(user.value.account.email) ==> !s'.loading
    ensures user.Some? && Truthy(user.value.account.email) && profile.Ok? ==>
              (s'.status == Pending <==> TruthyOpt(profile.value)) && s'.status != Unknown
    ensures profile.Err? ==> s'.status == s.status
  {
    if user.Some? && Truthy(user.value.account.email) then
      match profile
      case Ok(rr) => State(StatusOf(rr), false)
      case Err(_) => s.(loading := false)
    else s
  }

  /** `handleRequest()`: the backend answers `success` true or false, or the
      request fails. Only a success moves the status to pending. */
  function HandleRequest(s: State, reply: Result<bool>): (r: (State, Toast))
    ensures !r.0.loading
    ensures r.0.status == Pending <==> reply == Ok(true) || s.status == Pending
    ensures reply != Ok(true) ==> r.0.status == s.status
    ensures r.1 == (match reply case Ok(true) => Success(Sent) case Ok(false) => Error(Refused) case Err(_) => Error(SendFailed))
  {
    match reply
    case Ok(success) =>
      if success then (State(Pending, false), Success(Sent)) else (s.(loading := false), Error(Refused))
    case Err(_) => (s.(loading := false), Error(SendFailed))
  }

  /** The request button is shown iff the page is not loading and no request
      is pending. */
  predicate ShowsRequestButton(s: State) {
    !s.loading && s.status != Pending
  }

  /** Once a request is pending the button is gone for good: no later request
      outcome brings it back. */
  lemma PendingIsFinal(s: State, reply: Result<bool>)
    requires s.status == Pending
    ensures HandleRequest(s, reply).0.status == Pending
    ensures !ShowsRequestButton(HandleRequest(s, reply).0)
  {
  }

  /** A successful request hides the button; a refused or failed one shows it
      again, unless the profile already had a pending request. */
  lemma ButtonAfterRequest(s: State, reply: Result<bool>)
    ensures ShowsRequestButton(HandleRequest(s, reply).0) <==> reply != Ok(true) && s.status != Pending
  {
  }
}

=== FILE: routes.dfy ===
/** The route table of `App`: which view each path selects and which of them
    are wrapped in the route guard, with which role set. */
module Routes {
  import opened Base
  import opened Identity
  import opened AccessGuard

  /** The views the table can select; parameters carry the dynamic segment,
      dashboards carry the rest of the path their splat matched. */
  datatype View =
    | Home | Login | Register
    | PackageDetails(id: string) | GuideProfile(id: string) | TourTypePackages(tourType: string)
    | StoryDetail(id: string) | AllStories | AllPackages | Community | ContactUs | Blogs
    | AboutUs | TouristStories | MyBookings | Payment(id: string)
    | AdminDashboard(rest: seq<string>) | TouristDashboard(rest: seq<string>)
    | TourGuideDashboard(rest: seq<string>)
    | NotFound

  /** Whether a route's element is wrapped in the guard, and with which `roles` prop. */
  datatype Protection = Open | Guarded(roles: Option<seq<string>>)

  predicate SlashFree(w: string) {
    forall k :: 0 <= k < |w| ==> w[k] != '/'
  }

  /** What the user ends up with after navigating to a path. */
  datatype Screen = Show(view: View) | Loading | SentTo(to: string)

  /** Split a URL path on `/`, dropping empty segments. `cur` is the segment
      being read. Every segment is non-empty and free of `/`; `SegmentsCollapse`
      and `SplitJoin` below fix which segments they are. */
  function SplitPath(s: string, cur: string): (segs: seq<string>)
    ensures SlashFree(cur) ==> forall i :: 0 <= i < |segs| ==> |segs[i]| > 0 && SlashFree(segs[i])
    decreases |s|
  {
    if |s| == 0 then (if cur == "" then [] else [cur])
    else if s[0] == '/' then (if cur == "" then [] else [cur]) + SplitPath(s[1..], "")
    else SplitPath(s[1..], cur + [s[0]])
  }

  function Segments(path: string): seq<string> {
    SplitPath(path, "")
  }

  /** A literal route segment; the router matches literals ignoring case. */
  predicate Lit(seg: string, literal: string) {
    Lower(seg) == literal
  }

  predicate IsDashboard(segs: seq<string>, first: string) {
    |segs| >= 2 && Lit(segs[0], first) && Lit(segs[1], "dashboard")
  }

  /** The view selected for a path (segments without the leading `/`). */
  function Resolve(segs: seq<string>): (v: View)
    ensures v.AdminDashboard? <==> IsDashboard(segs, AdminRole)
    ensures v.TouristDashboard? <==> IsDashboard(segs, TouristRole)
    ensures v.TourGuideDashboard? <==> IsDashboard(segs, TourGuideRole)
    ensures v.Payment? <==> |segs| == 2 && Lit(segs[0], "payment")
  {
    if |segs| == 0 then Home
    else if |segs| == 1 then
      var s := Lower(segs[0]);
      if s == "login" then Login
      else if s == "register" then Register
      else if s == "all-stories" then AllStories
      else if s == "all-packages" then AllPackages
      else if s == "community" then Community
      else if s == "contact-us" then ContactUs
      else if s == "blogs" then Blogs
      else if s == "about-us" then AboutUs
      else if s == "tourist-stories" then TouristStories
      else if s == "my-bookings" then MyBookings
      else NotFound
    else if |segs| == 2 && Lit(segs[0], "package") then PackageDetails(segs[1])
    else if |segs| == 2 && Lit(segs[0], "guide") then GuideProfile(segs[1])
    else if |segs| == 2 && Lit(segs[0], "tours") then TourTypePackages(segs[1])
    else if |segs| == 2 && Lit(segs[0], "story") then StoryDetail(segs[1])
    else if |segs| == 2 && Lit(segs[0], "payment") then Payment(segs[1])
    else if IsDashboard(segs, AdminRole) then AdminDashboard(segs[2..])
    else if IsDashboard(segs, TouristRole) then TouristDashboard(segs[2..])
    else if IsDashboard(segs, TourGuideRole) then TourGuideDashboard(segs[2..])
    else NotFound
  }

  /** The guard wrapping of each route element. */
  function ProtectionOf(v: View): (p: Protection)
    ensures p.Guarded? <==> v.Payment? || v.AdminDashboard? || v.TouristDashboard? || v.TourGuideDashboard?
  {
    match v
    case Payment(_) => Guarded(None)
    case AdminDashboard(_) => Guarded(Some([AdminRole]))
    case TouristDashboard(_) => Guarded(Some([TouristRole]))
    case TourGuideDashboard(_) => Guarded(Some([TourGuideRole]))
    case _ => Open
  }

  /** Navigating to the path `location`, already split into segments. */
  function VisitSegments(segs: seq<string>, location: string, loading: bool, user: Option<User>): (s: Screen)
    ensures s.SentTo? ==> s.to == LoginPath
    ensures ProtectionOf(Resolve(segs)).Open? ==> s == Show(Resolve(segs))
    ensures s.Show? ==> s.view == Resolve(segs)
  {
    var v := Resolve(segs);
    match ProtectionOf(v)
    case Open => Show(v)
    case Guarded(roles) =>
      match Guard(loading, user, roles, location)
      case Spinner => Loading
      case Redirect(to, _) => SentTo(to)
      case Children => Show(v)
  }

  /** Navigating to `path` with the current session. */
  function Visit(path: string, loading: bool, user: Option<User>): (s: Screen)
    ensures s.Show? ==> s.view == Resolve(Segments(path))
    ensures s.SentTo? ==> s.to == LoginPath
    ensures loading ==> (s.Loading? <==> ProtectionOf(Resolve(Segments(path))).Guarded?)
    ensures !loading ==> !s.Loading?
    ensures !loading && ProtectionOf(Resolve(Segments(path))).Guarded? ==>
              (s.Show? <==> user.Some? && (ProtectionOf(Resolve(Segments(path))).roles.None?
                                           || RoleMatches(user.value.role, ProtectionOf(Resolve(Segments(path))).roles.value)))
  {
    VisitSegments(Segments(path), path, loading, user)
  }

  /** While the session is loading every guarded view shows the spinner. */
  lemma GuardedViewsWaitForSession(segs: seq<string>, location: string, user: Option<User>)
    requires ProtectionOf(Resolve(segs)).Guarded?
    ensures VisitSegments(segs, location, true, user) == Loading
  {
  }

  /** The payment view needs a session but no particular role. */
  lemma PaymentNeedsSessionOnly(id: string, user: Option<User>)
    requires |id| > 0
    requires SlashFree(id)
    ensures Visit("/payment/" + id, false, user) ==
              (if user.Some? then Show(Payment(id)) else SentTo(LoginPath))
  {
    SplitTwo("payment", id);
    assert "/payment/" + id == "/" + "payment" + "/" + id;
    LowerOfLowercase("payment");
    assert Resolve(["payment", id]) == Payment(id);
  }

  /** Each dashboard subtree admits exactly the signed-in users whose role
      lower-cases to the dashboard's role, and sends everyone else to the login view. */
  lemma DashboardAdmitsOnlyItsRole(segs: seq<string>, role: string, location: string, user: User)
    requires IsKnownRole(role)
    requires IsDashboard(segs, role)
    ensures ProtectionOf(Resolve(segs)) == Guarded(Some([role]))
    ensures VisitSegments(segs, location, false, Some(user)) ==
              (if user.role.Some? && Lower(user.role.value) == role then Show(Resolve(segs)) else SentTo(LoginPath))
  {
    LowerOfLowercase(role);
    SingleRoleGuard(user, role, location);
  }

  /** The package details and my-bookings views are not guarded: they are shown
      whatever the session. */
  lemma UnguardedViews(segs: seq<string>)
    requires (|segs| == 2 && Lit(segs[0], "package")) || (|segs| == 1 && Lit(segs[0], "my-bookings"))
    ensures ProtectionOf(Resolve(segs)) == Open
    ensures |segs| == 2 ==> Resolve(segs) == PackageDetails(segs[1])
    ensures |segs| == 1 ==> Resolve(segs) == MyBookings
  {
  }

  /** A path whose first segment names no route falls through to the error view. */
  lemma UnknownPathIsNotFound(segs: seq<string>)
    requires |segs| > 0
    requires Lower(segs[0]) !in {"login", "register", "all-stories", "all-packages", "community",
                                 "contact-us", "blogs", "about-us", "tourist-stories", "my-bookings",
                                 "package", "guide", "tours", "story", "payment",
                                 "admin", "tourist", "tourguide"}
    ensures Resolve(segs) == NotFound
  {
  }

  /** Reading segments: characters other than `/` extend the current segment. */
  lemma {:induction false} SplitPlain(w: string, rest: string, cur: string)
    requires SlashFree(w)
    ensures SplitPath(w + rest, cur) == SplitPath(rest, cur + w)
    decreases |w|
  {
    if |w| > 0 {
      assert (w + rest)[1..] == w[1..] + rest;
      SplitPlain(w[1..], rest, cur + [w[0]]);
      assert cur + [w[0]] + w[1..] == cur + w;
    } else {
      assert w + rest == rest;
      assert cur + w == cur;
    }
  }

  /** `"/" + a + "/" + b` splits into `[a, b]` for slash-free non-empty `a`, `b`. */
  lemma SplitTwo(a: string, b: string)
    requires |a| > 0 && |b| > 0
    requires SlashFree(a)
    requires SlashFree(b)
    ensures Segments("/" + a + "/" + b) == [a, b]
  {
    var s := "/" + a + "/" + b;
    assert s[1..] == a + ("/" + b);
    SplitPlain(a, "/" + b, "");
    assert "" + a == a;
    assert ("/" + b)[1..] == b;
    SplitPlain(b, "", "");
    assert b + "" == b;
    assert "" + b == b;
  }

  /** Segments written back as a path, separated by single slashes. */
  function Join(segs: seq<string>): string {
    if |segs| == 0 then ""
    else if |segs| == 1 then segs[0]
    else segs[0] + "/" + Join(segs[1..])
  }

  /** A character-level reading of a path: a slash survives only when the next
      character is not a slash, so every run of slashes shrinks to its last one
      and a trailing run disappears. */
  function DropRedundant(t: string): string
    decreases |t|
  {
    if |t| == 0 then ""
    else (if t[0] == '/' && (|t| == 1 || t[1] == '/') then "" else [t[0]]) + DropRedundant(t[1..])
  }

  function StripLead(u: string): string {
    if |u| > 0 && u[0] == '/' then u[1..] else u
  }

  /** The path with runs of slashes collapsed to one and leading and trailing
      slashes dropped. */
  function Collapse(t: string): string {
    StripLead(DropRedundant(t))
  }

  /** After a run of slashes, whatever survives starts with a slash. */
  lemma {:induction false} SlashRunLeads(t: string)
    requires |t| > 0 && t[0] == '/'
    ensures DropRedundant(t) == "" || DropRedundant(t)[0] == '/'
    decreases |t|
  {
    if |t| > 1 && t[1] == '/' {
      SlashRunLeads(t[1..]);
    }
  }

  /** No slash survives at the end. */
  lemma {:induction false} NoTrailingSlash(t: string)
    ensures DropRedundant(t) == "" || DropRedundant(t)[|DropRedundant(t)| - 1] != '/'
    decreases |t|
  {
    if |t| > 0 {
      NoTrailingSlash(t[1..]);
      if |t| > 1 {
        assert DropRedundant(t[1..]) == (if t[1] == '/' && (|t| == 2 || t[2] == '/') then "" else [t[1]]) + DropRedundant(t[2..]);
      }
    }
  }

  /** Reading one slash: it is dropped when nothing or another slash follows,
      and otherwise it separates what came before from what follows. */
  lemma SlashStep(s: string)
    requires |s| > 0 && s[0] == '/'
    ensures DropRedundant(s[1..]) == "" ==> DropRedundant(s) == ""
    ensures DropRedundant(s[1..]) != "" ==>
              StripLead(DropRedundant(s[1..])) != "" &&
              DropRedundant(s) == "/" + StripLead(DropRedundant(s[1..]))
  {
    var d := DropRedundant(s[1..]);
    NoTrailingSlash(s[1..]);
    if |s| > 1 && s[1] != '/' {
      assert d == [s[1]] + DropRedundant(s[2..]);
      assert DropRedundant(s) == "/" + d;
    } else if |s| > 1 {
      SlashRunLeads(s[1..]);
      assert DropRedundant(s) == "" + d;
    }
  }

  /** The step of `JoinSplit` at a slash, given the claim for the text after it. */
  lemma JoinSplitAtSlash(s: string, cur: string)
    requires SlashFree(cur) && |s| > 0 && s[0] == '/'
    requires Join(SplitPath(s[1..], "")) == StripLead(DropRedundant(s[1..]))
    ensures Join(SplitPath(s, cur)) == StripLead(cur + DropRedundant(s))
  {
    var rest := SplitPath(s[1..], "");
    SlashStep(s);
    if cur == "" {
      assert SplitPath(s, cur) == rest;
      assert cur + DropRedundant(s) == DropRedundant(s);
    } else {
      assert SplitPath(s, cur) == [cur] + rest;
      if rest != [] {
        assert ([cur] + rest)[1..] == rest;
        assert |Join(rest)| >= |rest[0]| > 0;
      }
    }
  }

  /** Splitting, then joining with single slashes, is the character-level
      collapse of the text read so far followed by the rest. */
  lemma {:induction false} JoinSplit(s: string, cur: string)
    requires SlashFree(cur)
    ensures Join(SplitPath(s, cur)) == StripLead(cur + DropRedundant(s))
    decreases |s|
  {
    if |s| == 0 {
      assert cur + DropRedundant(s) == cur;
    } else if s[0] == '/' {
      JoinSplit(s[1..], "");
      assert "" + DropRedundant(s[1..]) == DropRedundant(s[1..]);
      JoinSplitAtSlash(s, cur);
    } else {
      JoinSplit(s[1..], cur + [s[0]]);
      assert DropRedundant(s) == [s[0]] + DropRedundant(s[1..]);
      assert cur + [s[0]] + DropRedundant(s[1..]) == cur + DropRedundant(s);
    }
  }

  /** The segments of a path are its maximal slash-free runs: joined with single
      slashes they give the path with repeated, leading and trailing slashes
      removed. */
  lemma SegmentsCollapse(path: string)
    ensures Join(Segments(path)) == Collapse(path)
  {
    JoinSplit(path, "");
    assert "" + DropRedundant(path) == DropRedundant(path);
  }

  /** Joining non-empty slash-free segments and splitting the result gives them
      back, with or without the leading slash of a URL path. */
  lemma {:induction false} SplitJoin(segs: seq<string>)
    requires forall i :: 0 <= i < |segs| ==> |segs[i]| > 0 && SlashFree(segs[i])
    ensures Segments(Join(segs)) == segs
    ensures Segments("/" + Join(segs)) == segs
    decreases |segs|
  {
    var j := Join(segs);
    assert ("/" + j)[1..] == j;
    assert Segments("/" + j) == [] + SplitPath(j, "");
    if |segs| == 1 {
      SplitPlain(segs[0], "", "");
      assert segs[0] + "" == segs[0];
      assert "" + segs[0] == segs[0];
    } else if |segs| > 1 {
      var tail := Join(segs[1..]);
      SplitJoin(segs[1..]);
      assert j == segs[0] + ("/" + tail);
      SplitPlain(segs[0], "/" + tail, "");
      assert "" + segs[0] == segs[0];
      assert SplitPath("/" + tail, segs[0]) == [segs[0]] + SplitPath(tail, "");
      assert [segs[0]] + segs[1..] == segs;
    }
  }
}

=== FILE: secure_client.dfy ===
/** The authenticated HTTP client (`useAxiosSecure`): a request interceptor
    that attaches the stored bearer token, a response interceptor that signs
    the user out and navigates to the login view on 401 and 403, and the
    effect cleanup that ejects both interceptors. */
module SecureClient {
  import opened Base
  import Session

  const AuthorizationHeader: string := "Authorization"
  const LoginPath: string := "/login"

  datatype RequestConfig = RequestConfig(url: string, headers: map<string, string>)

  /** A rejected request: `status` is `error.response.status`, absent when the
      request got no response at all. */
  datatype HttpError = HttpError(status: Option<int>, message: string)

  datatype Response = Response(status: int, body: string)

  /** What the request produced before the response interceptor runs. */
  datatype Reply = Success(response: Response) | Failure(error: HttpError)

  /** How the promise the caller awaits settles. `Thrown` is an error other
      than the HTTP error, raised while handling it. */
  datatype Settled = Fulfilled(response: Response) | Rejected(error: HttpError) | Thrown(message: string)

  /** Side effects of the response interceptor, in order. */
  datatype Effect = LogOutCalled | NavigatedTo(path: string)

  // ---------------------------------------------------------------------------
  // Request interceptor
  // ---------------------------------------------------------------------------

  /** Attach `Authorization: Bearer <token>` when the stored token is truthy;
      otherwise the config is returned unchanged. */
  function AttachToken(config: RequestConfig, storage: Session.Storage): (c: RequestConfig)
    ensures c.url == config.url
    ensures !TruthyOpt(Session.StoredToken(storage)) ==> c == config
    ensures TruthyOpt(Session.StoredToken(storage)) ==>
              AuthorizationHeader in c.headers
              && Session.TokenOfHeader(c.headers[AuthorizationHeader]) == Session.StoredToken(storage)
    ensures forall h :: h != AuthorizationHeader ==> (h in c.headers <==> h in config.headers)
    ensures forall h :: h != AuthorizationHeader && h in c.headers ==> c.headers[h] == config.headers[h]
  {
    var token := Session.StoredToken(storage);
    if TruthyOpt(token) then
      var header := Session.BearerPrefix + token.value;
      assert header[..|Session.BearerPrefix|] == Session.BearerPrefix;
      assert header[|Session.BearerPrefix|..] == token.value;
      config.(headers := config.headers[AuthorizationHeader := header])
    else config
  }

  /** Attaching twice is the same as attaching once. */
  lemma AttachTokenIdempotent(config: RequestConfig, storage: Session.Storage)
    ensures AttachToken(AttachToken(config, storage), storage) == AttachToken(config, storage)
  {
  }

  // ---------------------------------------------------------------------------
  // Response interceptor
  // ---------------------------------------------------------------------------

  predicate IsAuthFailure(e: HttpError) {
    e.status == Some(401) || e.status == Some(403)
  }

  function Count(effects: seq<Effect>, e: Effect): (n: nat)
    ensures n <= |effects|
    ensures e !in effects ==> n == 0
  {
    if |effects| == 0 then 0 else (if effects[0] == e then 1 else 0) + Count(effects[1..], e)
  }

  /** The response interceptor. A success passes through. A failure with
      status 401 or 403 awaits `logOut` (whose outcome is `signedOut`), then
      navigates to the login view; every failure is then rejected again with
      the original error. When `logOut` itself rejects, its error propagates
      and the navigation is skipped. */
  function OnResponse(reply: Reply, signedOut: Outcome): (r: (seq<Effect>, Settled))
    ensures reply.Success? ==> r == ([], Fulfilled(reply.response))
    ensures reply.Failure? && !IsAuthFailure(reply.error) ==> r == ([], Rejected(reply.error))
    ensures reply.Failure? && IsAuthFailure(reply.error) ==> Count(r.0, LogOutCalled) == 1 && r.0[0] == LogOutCalled
    ensures reply.Failure? && IsAuthFailure(reply.error) && signedOut.Done? ==>
              r == ([LogOutCalled, NavigatedTo(LoginPath)], Rejected(reply.error))
    ensures reply.Failure? && IsAuthFailure(reply.error) && signedOut.Failed? ==>
              r == ([LogOutCalled], Thrown(signedOut.message))
    // no failure is ever turned into a success: nothing is retried
    ensures reply.Failure? ==> !r.1.Fulfilled?
    ensures forall i :: 0 <= i < |r.0| && r.0[i].NavigatedTo? ==> r.0[i].path == LoginPath && i > 0 && r.0[i - 1] == LogOutCalled
  {
    match reply
    case Success(response) => ([], Fulfilled(response))
    case Failure(error) =>
      if IsAuthFailure(error) then
        match signedOut
        case Done => ([LogOutCalled, NavigatedTo(LoginPath)], Rejected(error))
        case Failed(m) => ([LogOutCalled], Thrown(m))
      else ([], Rejected(error))
  }

  /** A 401 or 403 with a successful sign-out leaves the session signed out:
      no user, no default header, no stored token; the navigation to the
      login view happens exactly once and the caller still sees the original
      rejection. */
  lemma AuthFailureSignsOut(s: Session.State, error: HttpError)
    requires IsAuthFailure(error)
    ensures var (effects, settled) := OnResponse(Failure(error), Done);
            var (s', _) := Session.LogOut(s, Done);
            Session.SignedOut(s') && TruthyOpt(Session.StoredToken(s'.storage)) == false
            && Count(effects, NavigatedTo(LoginPath)) == 1 && settled == Rejected(error)
  {
    assert Count([LogOutCalled, NavigatedTo(LoginPath)], NavigatedTo(LoginPath)) == 1 by {
      assert [LogOutCalled, NavigatedTo(LoginPath)][1..] == [NavigatedTo(LoginPath)];
    }
  }

  /** After a sign-out the request interceptor no longer attaches a token. */
  lemma NoTokenAfterSignOut(s: Session.State, config: RequestConfig)
    ensures AttachToken(config, Session.LogOut(s, Done).0.storage) == config
  {
  }

  // ---------------------------------------------------------------------------
  // Installing and ejecting the interceptors
  // ---------------------------------------------------------------------------

  datatype Handler = AttachTokenHandler | AuthFailureHandler | OtherHandler(name: string)

  /** An interceptor stack: `use` appends and returns the slot index, `eject`
      blanks the slot (`null`) so that later indices stay valid. */
  datatype Stack = Stack(slots: seq<Option<Handler>>)

  function Use(st: Stack, h: Handler): (r: (Stack, nat))
    ensures r.1 == |st.slots| && |r.0.slots| == |st.slots| + 1
    ensures r.0.slots[r.1] == Some(h)
    ensures r.0.slots[..|st.slots|] == st.slots
  {
    (Stack(st.slots + [Some(h)]), |st.slots|)
  }

  function Eject(st: Stack, id: nat): (r: Stack)
    ensures |r.slots| == |st.slots|
    ensures id < |st.slots| ==> r.slots[id].None?
    ensures forall i :: 0 <= i < |st.slots| && i != id ==> r.slots[i] == st.slots[i]
  {
    if id < |st.slots| then Stack(st.slots[id := None]) else st
  }

  /** The handlers that still run, in order. */
  function Live(slots: seq<Option<Handler>>): (r: seq<Handler>)
    ensures |r| <= |slots|
  {
    if |slots| == 0 then [] else (if slots[0].Some? then [slots[0].value] else []) + Live(slots[1..])
  }

  /** The effect of the hook: install one handler on each stack and hand back
      the two slot indices for the cleanup. */
  function Install(requests: Stack, responses: Stack): (r: (Stack, Stack, nat, nat))
    ensures r.2 == |requests.slots| && r.3 == |responses.slots|
    ensures r.0.slots == requests.slots + [Some(AttachTokenHandler)]
    ensures r.1.slots == responses.slots + [Some(AuthFailureHandler)]
  {
    var (rq, i) := Use(requests, AttachTokenHandler);
    var (rs, j) := Use(responses, AuthFailureHandler);
    (rq, rs, i, j)
  }

  /** The effect's cleanup: eject the request handler and the response handler
      by the indices the effect kept; every other slot stays as it was. */
  function Cleanup(requests: Stack, responses: Stack, requestId: nat, responseId: nat): (r: (Stack, Stack))
    ensures |r.0.slots| == |requests.slots| && |r.1.slots| == |responses.slots|
    ensures requestId < |requests.slots| ==> r.0.slots[requestId].None?
    ensures responseId < |responses.slots| ==> r.1.slots[responseId].None?
    ensures forall i :: 0 <= i < |requests.slots| && i != requestId ==> r.0.slots[i] == requests.slots[i]
    ensures forall i :: 0 <= i < |responses.slots| && i != responseId ==> r.1.slots[i] == responses.slots[i]
  {
    (Eject(requests, requestId), Eject(responses, responseId))
  }

  lemma {:induction false} LiveAppendNone(slots: seq<Option<Handler>>)
    ensures Live(slots + [None]) == Live(slots)
  {
    if |slots| > 0 {
      assert (slots + [None])[1..] == slots[1..] + [None];
      LiveAppendNone(slots[1..]);
    } else {
      assert Live([None]) == [] + Live([]);
    }
  }

  /** Mounting and then unmounting the hook leaves both stacks running the
      same handlers as before, and touches no other slot. */
  lemma InstallCleanupRestores(requests: Stack, responses: Stack)
    ensures var (rq, rs, i, j) := Install(requests, responses);
            var (rq', rs') := Cleanup(rq, rs, i, j);
            Live(rq'.slots) == Live(requests.slots) && Live(rs'.slots) == Live(responses.slots)
            && rq'.slots[..|requests.slots|] == requests.slots && rs'.slots[..|responses.slots|] == responses.slots
  {
    var (rq, rs, i, j) := Install(requests, responses);
    var (rq', rs') := Cleanup(rq, rs, i, j);
    assert rq'.slots == requests.slots + [None];
    assert rs'.slots == responses.slots + [None];
    LiveAppendNone(requests.slots);
    LiveAppendNone(responses.slots);
  }
}

=== FILE: session.dfy ===
/** The session provider (`AuthProvider`): the current user, the `loading`
    flag, the default `Authorization` header of the shared HTTP client and the
    persisted `access-token` entry. Identity-service and backend replies are
    parameters of each operation. */
module Session {
  import opened Base
  import opened Identity

  /** Browser storage as a key/value map. */
  type Storage = map<string, string>

  const TokenKey: string := "access-token"
  const BearerPrefix: string := "Bearer "

  datatype State = State(
    user: Option<User>,
    loading: bool,
    /** `axios.defaults.headers.common['Authorization']`, absent when deleted. */
    authHeader: Option<string>,
    storage: Storage)

  /** What `localStorage.getItem('access-token')` returns. */
  function StoredToken(storage: Storage): Option<string> {
    if TokenKey in storage then Some(storage[TokenKey]) else None
  }

  /** The provider's first state: no user yet, `loading` until the first
      auth-change callback, storage as left by earlier visits. */
  function Init(storage: Storage): (s: State)
    ensures s.loading && s.user.None? && s.authHeader.None? && s.storage == storage
  {
    State(None, true, None, storage)
  }

  /** The session is signed out: no user, no default header, no stored token. */
  predicate SignedOut(s: State) {
    s.user.None? && s.authHeader.None? && TokenKey !in s.storage
  }

  /** The default header carries exactly the stored token, or neither is set. */
  predicate TokenAgreement(s: State) {
    if TruthyOpt(StoredToken(s.storage)) then s.authHeader == Some(BearerPrefix + s.storage[TokenKey])
    else s.authHeader.None?
  }

  /** How the server reads an `Authorization` header: the text after `Bearer `. */
  function TokenOfHeader(h: string): Option<string> {
    if |h| >= |BearerPrefix| && h[..|BearerPrefix|] == BearerPrefix then Some(h[|BearerPrefix|..]) else None
  }

  /** `setAuthToken`: set the default header for a truthy token, delete it otherwise. */
  function SetAuthToken(s: State, token: Option<string>): (r: State)
    ensures TruthyOpt(token) ==> r.authHeader.Some? && TokenOfHeader(r.authHeader.value) == token
    ensures !TruthyOpt(token) ==> r.authHeader.None?
    ensures r.user == s.user && r.loading == s.loading && r.storage == s.storage
  {
    if TruthyOpt(token) then s.(authHeader := Some(BearerPrefix + token.value))
    else s.(authHeader := None)
  }

  /** Store a truthy token from the token endpoint and make it the default header. */
  function AdoptToken(s: State, token: Option<string>): (r: State)
    ensures TruthyOpt(token) ==> StoredToken(r.storage) == token && TokenAgreement(r)
    ensures !TruthyOpt(token) ==> r == s
    ensures r.user == s.user && r.loading == s.loading
    ensures forall k :: k != TokenKey ==> (k in r.storage <==> k in s.storage)
    // only the token entry is written; every other stored value is kept
    ensures TruthyOpt(token) ==> r.storage == s.storage[TokenKey := token.value]
  {
    if TruthyOpt(token) then SetAuthToken(s.(storage := s.storage[TokenKey := token.value]), token)
    else s
  }

  /** `fetchUserRole`: the profile's role, or `null` when the request fails. */
  function FetchUserRole(reply: Result<Option<string>>): (role: Option<string>)
    ensures reply.Ok? ==> role == reply.value
    ensures reply.Err? ==> role.None?
  {
    match reply
    case Ok(r) => r
    case Err(_) => None
  }

  /** `createUser`: create the account, set its profile, fetch its role, and
      set the user; any failure is rethrown and leaves the user as it was. */
  function CreateUser(s: State, name: string, photoURL: string,
                      created: Result<Account>, profileSet: Outcome,
                      roleReply: Result<Option<string>>): (r: (State, Result<Account>))
    ensures !r.0.loading
    ensures r.0.authHeader == s.authHeader && r.0.storage == s.storage
    ensures r.1.Ok? <==> created.Ok? && profileSet.Done?
    ensures r.1.Ok? ==> r.0.user == Some(User(r.1.value, FetchUserRole(roleReply)))
    ensures r.1.Ok? ==> r.1.value.displayName == name && r.1.value.photoURL == photoURL
    ensures r.1.Ok? ==> r.1.value.email == created.value.email && r.1.value.uid == created.value.uid
    ensures r.1.Err? ==> r.0.user == s.user
    ensures created.Err? ==> r.1 == Err(created.message)
    ensures TokenAgreement(s) ==> TokenAgreement(r.0)
  {
    match created
    case Err(m) => (s.(loading := false), Err(m))
    case Ok(account) =>
      match profileSet
      case Failed(m) => (s.(loading := false), Err(m))
      case Done =>
        var updated := account.(displayName := name, photoURL := photoURL);
        (s.(user := Some(User(updated, FetchUserRole(roleReply))), loading := false), Ok(updated))
  }

  /** `logIn`: sign in, fetch the role, set the user; failures are rethrown. */
  function LogIn(s: State, signedIn: Result<Account>, roleReply: Result<Option<string>>): (r: (State, Outcome))
    ensures !r.0.loading
    ensures r.0.authHeader == s.authHeader && r.0.storage == s.storage
    ensures signedIn.Ok? ==> r.1 == Done && r.0.user == Some(User(signedIn.value, FetchUserRole(roleReply)))
    ensures signedIn.Err? ==> r.1 == Failed(signedIn.message) && r.0.user == s.user
    ensures TokenAgreement(s) ==> TokenAgreement(r.0)
  {
    match signedIn
    case Err(m) => (s.(loading := false), Failed(m))
    case Ok(account) => (s.(user := Some(User(account, FetchUserRole(roleReply))), loading := false), Done)
  }

  /** `logOut`: sign out, clear the user, the default header and the stored
      token; a failed sign-out is rethrown and changes nothing else. */
  function LogOut(s: State, signedOut: Outcome): (r: (State, Outcome))
    ensures !r.0.loading
    ensures r.1 == signedOut
    ensures signedOut.Done? ==> SignedOut(r.0)
    ensures signedOut.Done? ==> forall k :: k != TokenKey ==> (k in r.0.storage <==> k in s.storage)
    // only the token entry is removed; every other stored value is kept
    ensures signedOut.Done? ==> r.0.storage == s.storage - {TokenKey}
    ensures signedOut.Failed? ==> r.0 == s.(loading := false)
    ensures TokenAgreement(s) ==> TokenAgreement(r.0)
  {
    match signedOut
    case Failed(m) => (s.(loading := false), Failed(m))
    case Done => (SetAuthToken(s.(user := None), None).(storage := s.storage - {TokenKey}, loading := false), Done)
  }

  /** Backend calls the provider issues, in order. */
  datatype Call =
    | CheckUserExists(email: string)
    | RegisterUser(email: string, name: string, photoURL: string, role: string)
    | IssueToken(email: string)
    | FetchProfile(email: string)

  /** `role || 'tourist'`: a missing or empty role defaults to `tourist`. */
  function RoleOrTourist(role: Option<string>): (r: string)
    ensures Truthy(r)
    ensures TruthyOpt(role) ==> r == role.value
    ensures !TruthyOpt(role) ==> r == TouristRole
  {
    if TruthyOpt(role) then role.value else TouristRole
  }

  /** Every awaited step of the Google flow before the role fetch succeeded. */
  predicate GoogleFlowCompletes(popup: Result<Account>, existsReply: Result<bool>,
                                registerReply: Outcome, tokenReply: Result<Option<string>>) {
    popup.Ok? && existsReply.Ok? && (existsReply.value || registerReply.Done?) && tokenReply.Ok?
  }

  /** The `try` block of `signUpWithGoogle`: after the popup, register the
      account with the backend if it is not known there, fetch and store a
      token, fetch the role (defaulting to `tourist`) and set the user. It
      ends with `Ok(result)` when it runs to its last statement, where
      `result` is the popup's account, and with `Err(message)` when an awaited
      step rejects; the role fetch never rejects. Nothing changes before the
      last step, so a rejection leaves the session as it was. */
  function GoogleTry(s: State, popup: Result<Account>, existsReply: Result<bool>,
                     registerReply: Outcome, tokenReply: Result<Option<string>>,
                     roleReply: Result<Option<string>>): (r: (State, seq<Call>, Result<Account>))
    ensures r.2.Ok? <==> GoogleFlowCompletes(popup, existsReply, registerReply, tokenReply)
    ensures r.2.Ok? ==> r.2.value == popup.value
    ensures r.2.Ok? ==> r.0.user == Some(User(popup.value, Some(RoleOrTourist(FetchUserRole(roleReply)))))
    ensures r.2.Ok? ==> r.0.loading == s.loading
    ensures r.2.Err? ==> r.0 == s
    ensures popup.Err? ==> r.1 == []
    ensures popup.Ok? ==> |r.1| > 0 && r.1[0] == CheckUserExists(popup.value.email)
    ensures (exists i :: 0 <= i < |r.1| && r.1[i].RegisterUser?) <==> popup.Ok? && existsReply == Ok(false)
    ensures forall i :: 0 <= i < |r.1| && r.1[i].RegisterUser? ==> r.1[i].role == TouristRole
    ensures GoogleFlowCompletes(popup, existsReply, registerReply, tokenReply) ==>
              StoredToken(r.0.storage) == (if TruthyOpt(tokenReply.value) then tokenReply.value else StoredToken(s.storage))
    ensures TokenAgreement(s) ==> TokenAgreement(r.0)
  {
    match popup
    case Err(m) => (s, [], Err(m))
    case Ok(account) =>
      var check := [CheckUserExists(account.email)];
      match existsReply
      case Err(m) => (s, check, Err(m))
      case Ok(exists_) =>
        var register := if exists_ then [] else [RegisterUser(account.email, account.displayName, account.photoURL, TouristRole)];
        assert !exists_ ==> (check + register)[1].RegisterUser?;
        if !exists_ && registerReply.Failed? then (s, check + register, Err(registerReply.message))
        else
          var issued := check + register + [IssueToken(account.email)];
          assert !exists_ ==> issued[1].RegisterUser? && (issued + [FetchProfile(account.email)])[1].RegisterUser?;
          match tokenReply
          case Err(m) => (s, issued, Err(m))
          case Ok(token) =>
            var s1 := AdoptToken(s, token);
            var role := RoleOrTourist(FetchUserRole(roleReply));
            (s1.(user := Some(User(account, Some(role)))), issued + [FetchProfile(account.email)], Ok(account))
  }

  /** `signUpWithGoogle` as written: the `try` block, a `catch` that logs and
      swallows the error, and `finally` ending the spinner. The function has
      no `return`, so its promise settles to `undefined` (`Ok(None)`) whether
      the `try` block ran to its end or was cut short. */
  function SignUpWithGoogle(s: State, popup: Result<Account>, existsReply: Result<bool>,
                            registerReply: Outcome, tokenReply: Result<Option<string>>,
                            roleReply: Result<Option<string>>): (r: (State, seq<Call>, Result<Option<Account>>))
    ensures !r.0.loading
    ensures r.2 == Ok(None)
    ensures popup.Err? ==> r.0 == s.(loading := false) && r.1 == []
    ensures popup.Ok? ==> |r.1| > 0 && r.1[0] == CheckUserExists(popup.value.email)
    ensures (exists i :: 0 <= i < |r.1| && r.1[i].RegisterUser?) <==> popup.Ok? && existsReply == Ok(false)
    ensures forall i :: 0 <= i < |r.1| && r.1[i].RegisterUser? ==> r.1[i].role == TouristRole
    ensures GoogleFlowCompletes(popup, existsReply, registerReply, tokenReply) ==>
              r.0.user == Some(User(popup.value, Some(RoleOrTourist(FetchUserRole(roleReply)))))
    ensures GoogleFlowCompletes(popup, existsReply, registerReply, tokenReply) ==>
              StoredToken(r.0.storage) == (if TruthyOpt(tokenReply.value) then tokenReply.value else StoredToken(s.storage))
    ensures !GoogleFlowCompletes(popup, existsReply, registerReply, tokenReply) ==> r.0 == s.(loading := false)
    ensures TokenAgreement(s) ==> TokenAgreement(r.0)
  {
    var (s1, calls, ended) := GoogleTry(s, popup, existsReply, registerReply, tokenReply, roleReply);
    // neither the end of the `try` block nor the `catch` returns a value
    var settled := match ended
                   case Ok(_) => Ok(None)
                   case Err(_) => Ok(None);
    (s1.(loading := false), calls, settled)
  }

  /** `signUpWithGoogle` ending its `try` block with `return result`, as its
      caller in the registration view expects: the same calls and session
      changes, and the promise settles to the signed-in account when the
      `try` block ran to its end. */
  function SignUpWithGoogleFixed(s: State, popup: Result<Account>, existsReply: Result<bool>,
                                 registerReply: Outcome, tokenReply: Result<Option<string>>,
                                 roleReply: Result<Option<string>>): (r: (State, seq<Call>, Result<Option<Account>>))
    ensures r.0 == SignUpWithGoogle(s, popup, existsReply, registerReply, tokenReply, roleReply).0
    ensures r.1 == SignUpWithGoogle(s, popup, existsReply, registerReply, tokenReply, roleReply).1
    ensures r.2.Ok?
    ensures r.2.value.Some? <==> GoogleFlowCompletes(popup, existsReply, registerReply, tokenReply)
    ensures r.2.value.Some? ==> popup.Ok? && r.2.value.value == popup.value
                                && r.0.user.Some? && r.0.user.value.account == r.2.value.value
    ensures r.2.value.None? ==> r.0 == s.(loading := false)
  {
    var (s1, calls, ended) := GoogleTry(s, popup, existsReply, registerReply, tokenReply, roleReply);
    var settled := match ended
                   case Ok(result) => Ok(Some(result))
                   case Err(_) => Ok(None);
    (s1.(loading := false), calls, settled)
  }

  /** From a signed-out page, the fixed promise yields an account exactly when
      the flow signed that account in: the value and the session agree. */
  lemma GoogleValueTracksUser(s: State, popup: Result<Account>, existsReply: Result<bool>,
                              registerReply: Outcome, tokenReply: Result<Option<string>>,
                              roleReply: Result<Option<string>>)
    requires s.user.None?
    ensures var r := SignUpWithGoogleFixed(s, popup, existsReply, registerReply, tokenReply, roleReply);
            r.2.Ok? && (r.2.value.Some? <==> popup.Ok? && r.0.user.Some? && r.0.user.value.account == popup.value)
  {
  }

  /** A user signed in through Google always carries a role: the profile's
      role when it has one, `tourist` otherwise. */
  lemma GoogleUserHasRole(s: State, popup: Result<Account>, existsReply: Result<bool>,
                          registerReply: Outcome, tokenReply: Result<Option<string>>,
                          roleReply: Result<Option<string>>)
    requires GoogleFlowCompletes(popup, existsReply, registerReply, tokenReply)
    ensures var u := SignUpWithGoogle(s, popup, existsReply, registerReply, tokenReply, roleReply).0.user;
            u.Some? && TruthyOpt(u.value.role)
            && (roleReply.Ok? && TruthyOpt(roleReply.value) ==> u.value.role == roleReply.value)
            && (!(roleReply.Ok? && TruthyOpt(roleReply.value)) ==> u.value.role == Some(TouristRole))
  {
  }

  /** `signUpWithGitHub`: the popup's own promise, passed through. */
  function SignUpWithGitHub(popup: Result<Account>): (v: Result<Option<Account>>)
    ensures popup.Ok? ==> v == Ok(Some(popup.value))
    ensures popup.Err? ==> v == Err(popup.message)
  {
    match popup
    case Ok(a) => Ok(Some(a))
    case Err(m) => Err(m)
  }

  /** The `onAuthStateChanged` callback. With an account: set the user with the
      fetched role, then store and set a token if the token endpoint returns
      one. Without: clear user, header and stored token. */
  function OnAuthStateChanged(s: State, current: Option<Account>,
                              roleReply: Result<Option<string>>,
                              tokenReply: Result<Option<string>>): (r: State)
    ensures !r.loading
    ensures current.None? ==> SignedOut(r)
    ensures current.None? ==> r.storage == s.storage - {TokenKey}
    ensures current.Some? ==> r.user == Some(User(current.value, FetchUserRole(roleReply)))
    ensures current.Some? && tokenReply.Ok? && TruthyOpt(tokenReply.value) ==>
              StoredToken(r.storage) == tokenReply.value && TokenAgreement(r)
    ensures current.Some? && !(tokenReply.Ok? && TruthyOpt(tokenReply.value)) ==>
              r.storage == s.storage && r.authHeader == s.authHeader
    ensures TokenAgreement(s) ==> TokenAgreement(r)
  {
    match current
    case None => SetAuthToken(s.(user := None), None).(storage := s.storage - {TokenKey}, loading := false)
    case Some(account) =>
      var s1 := s.(user := Some(User(account, FetchUserRole(roleReply))));
      var s2 := match tokenReply
                case Ok(token) => AdoptToken(s1, token)
                case Err(_) => s1;
      s2.(loading := false)
  }

  /** Round trip of the default header: stripping the `Bearer ` prefix gives
      back the stored token. */
  lemma HeaderCarriesStoredToken(s: State)
    requires TokenAgreement(s)
    requires TruthyOpt(StoredToken(s.storage))
    ensures s.authHeader.Some? && TokenOfHeader(s.authHeader.value) == StoredToken(s.storage)
  {
    var h := BearerPrefix + s.storage[TokenKey];
    assert h[..|BearerPrefix|] == BearerPrefix;
    assert h[|BearerPrefix|..] == s.storage[TokenKey];
  }

  /** Signing out leaves a session in which the header and storage agree,
      whatever state came before. */
  lemma SignedOutAgrees(s: State)
    requires SignedOut(s)
    ensures TokenAgreement(s)
  {
  }

  /** On a page load the default header is not set yet, so header and storage
      agree from the start exactly when no token is stored. */
  lemma InitAgreement(storage: Storage)
    ensures TokenAgreement(Init(storage)) <==> !TruthyOpt(StoredToken(storage))
  {
  }

  /** The first auth-change callback after a page load establishes the
      agreement when it signs out or the token endpoint returns a token;
      otherwise a token stored by an earlier visit stays without a header. */
  lemma FirstAuthChangeAgreement(storage: Storage, current: Option<Account>,
                                 roleReply: Result<Option<string>>, tokenReply: Result<Option<string>>)
    ensures TokenAgreement(OnAuthStateChanged(Init(storage), current, roleReply, tokenReply)) <==>
              current.None? || (tokenReply.Ok? && TruthyOpt(tokenReply.value)) || !TruthyOpt(StoredToken(storage))
  {
  }
}

=== FILE: wishlist.dfy ===
/** The tourist's wishlist page (`MyWishlist`): the two-step fetch with its
    error texts, deleting an entry, and the pager with its Previous and Next
    buttons. */
module Wishlist {
  import opened Base
  import opened Identity
  import Paging
  import ListOps

  const NoItemsError: string := "No items in your wishlist."
  const WishlistFetchError: string := "Failed to fetch wishlist data."
  const PackagesFetchError: string := "Failed to fetch packages data."
  const DeleteError: string := "Failed to delete wishlist item."

  datatype Package = Package(id: string, packageName: string)

  /** `wishlist` holds wishlist entries by package id; the view never fills it
      from the fetch, so it only ever shrinks. `page` is `currentPage`. */
  datatype State = State(wishlist: seq<string>, packages: seq<Package>, loading: bool, error: Option<string>, page: int)

  datatype Call = GetWishlist(email: string) | PostByIds(packageIds: seq<string>) | DeleteEntry(email: string, packageId: string)

  function Init(): (s: State)
    ensures s.loading && s.error.None? && s.page == 1 && s.packages == []
  {
    State([], [], true, None, 1)
  }

  /** The fetch effect for a user with an email: read the wishlist's package
      ids (`idsReply`); none gives the "no items" error and no second request;
      otherwise fetch those packages (`packagesReply`). */
  function FetchWishlist(s: State, user: Option<User>, idsReply: Result<seq<string>>, packagesReply: Result<seq<Package>>): (r: (State, seq<Call>))
    ensures !(user.Some? && Truthy(user.value.account.email)) ==> r == (s, [])
    ensures user.Some? && Truthy(user.value.account.email) ==>
              !r.0.loading && |r.1| >= 1 && r.1[0] == GetWishlist(user.value.account.email)
    ensures idsReply.Err? && user.Some? && Truthy(user.value.account.email) ==>
              r.0.error == Some(WishlistFetchError) && |r.1| == 1
    ensures idsReply == Ok([]) && user.Some? && Truthy(user.value.account.email) ==>
              r.0.error == Some(NoItemsError) && |r.1| == 1
    ensures idsReply.Ok? && |idsReply.value| > 0 && user.Some? && Truthy(user.value.account.email) ==>
              r.1 == [GetWishlist(user.value.account.email), PostByIds(idsReply.value)]
              && (packagesReply.Ok? ==> r.0.packages == packagesReply.value && r.0.error == s.error)
              && (packagesReply.Err? ==> r.0.error == Some(PackagesFetchError) && r.0.packages == s.packages)
    // a package request is made exactly when the wishlist has entries
    ensures (exists i :: 0 <= i < |r.1| && r.1[i].PostByIds?) <==>
              user.Some? && Truthy(user.value.account.email) && idsReply.Ok? && |idsReply.value| > 0
  {
    if !(user.Some? && Truthy(user.value.account.email)) then (s, [])
    else
      var get := GetWishlist(user.value.account.email);
      match idsReply
      case Err(_) => (s.(error := Some(WishlistFetchError), loading := false), [get])
      case Ok(ids) =>
        if |ids| == 0 then (s.(loading := false, error := Some(NoItemsError)), [get])
        else
          var post := PostByIds(ids);
          match packagesReply
          case Ok(pkgs) =>
            assert [get, post][1].PostByIds?;
            (s.(packages := pkgs, loading := false), [get, post])
          case Err(_) =>
            assert [get, post][1].PostByIds?;
            (s.(error := Some(PackagesFetchError), loading := false), [get, post])
  }

  /** `handleDelete(id)`: DELETE the entry, then drop it from both lists; a
      failed DELETE sets the error and keeps the lists. */
  function HandleDelete(s: State, email: string, packageId: string, reply: Outcome): (r: (State, Call))
    ensures r.1 == DeleteEntry(email, packageId)
    ensures r.0.page == s.page && r.0.loading == s.loading
    ensures reply.Failed? ==> r.0 == s.(error := Some(DeleteError))
    ensures reply.Done? ==> r.0.error == s.error
    ensures reply.Done? ==> forall p :: p in r.0.packages ==> p in s.packages && p.id != packageId
    ensures reply.Done? ==> forall p: Package :: p.id != packageId ==> multiset(r.0.packages)[p] == multiset(s.packages)[p]
    ensures reply.Done? ==> forall x :: x in r.0.wishlist ==> x in s.wishlist && x != packageId
  {
    if reply.Done? then
      (s.(wishlist := ListOps.FilterOut(s.wishlist, (x: string) => x == packageId),
          packages := ListOps.FilterOut(s.packages, (p: Package) => p.id == packageId)),
       DeleteEntry(email, packageId))
    else (s.(error := Some(DeleteError)), DeleteEntry(email, packageId))
  }

  /** Deleting keeps the other packages in their order. */
  lemma DeleteKeepsOrder(s: State, front: seq<Package>, back: seq<Package>, email: string, packageId: string)
    requires s.packages == front + back
    ensures HandleDelete(s, email, packageId, Done).0.packages ==
              HandleDelete(s.(packages := front), email, packageId, Done).0.packages
              + HandleDelete(s.(packages := back), email, packageId, Done).0.packages
  {
    ListOps.FilterOutAppend(front, back, (p: Package) => p.id == packageId);
  }

  // ---------------------------------------------------------------------------
  // Pager
  // ---------------------------------------------------------------------------

  /** `Math.ceil(packages.length / 10)`: the least number of pages that holds
      every package. */
  function TotalPages(s: State): (n: nat)
    ensures n * Paging.PageSize >= |s.packages|
    ensures n > 0 ==> (n - 1) * Paging.PageSize < |s.packages|
    ensures n == 0 <==> |s.packages| == 0
  {
    Paging.PageCount(|s.packages|)
  }

  /** Previous is disabled on the first page. */
  predicate PrevDisabled(page: int) {
    page == 1
  }

  /** Next as written: disabled only on the page equal to the page count. */
  predicate NextDisabledAsWritten(page: int, totalPages: nat) {
    page == totalPages
  }

  /** Next as evidently intended: disabled on the last page and beyond it, so
      that, from any page the pager can show, Next is enabled exactly when
      the next page has rows. */
  function NextDisabled(packages: seq<Package>, page: int): (b: bool)
    ensures page >= 1 ==> (!b <==> |Paging.PageOf(packages, page + 1)| > 0)
    ensures NextDisabledAsWritten(page, Paging.PageCount(|packages|)) ==> b
  {
    page >= Paging.PageCount(|packages|)
  }

  /** What the page renders. */
  datatype Screen = Loading | ErrorText(text: string) | Table(rows: seq<Package>, prevDisabled: bool, nextDisabled: bool, pageButtons: seq<int>)

  /** The page as written: the spinner, then the error text, then the rows of
      the current page with the pager, whose Next button is disabled only when
      the page number equals the page count. */
  function View(s: State): (v: Screen)
    ensures s.loading ==> v == Loading
    ensures !s.loading && s.error.Some? && Truthy(s.error.value) ==> v == ErrorText(s.error.value)
    ensures !s.loading && !(s.error.Some? && Truthy(s.error.value)) ==> v.Table?
    ensures v.Table? ==> v.rows == Paging.PageOf(s.packages, s.page) && |v.rows| <= Paging.PageSize
    ensures v.Table? ==> |v.pageButtons| == TotalPages(s) && forall i :: 0 <= i < |v.pageButtons| ==> v.pageButtons[i] == i + 1
    ensures v.Table? ==> (v.prevDisabled <==> s.page == 1) && (v.nextDisabled <==> s.page == TotalPages(s))
  {
    if s.loading then Loading
    else if s.error.Some? && Truthy(s.error.value) then ErrorText(s.error.value)
    else Table(Paging.PageOf(s.packages, s.page), PrevDisabled(s.page), NextDisabledAsWritten(s.page, TotalPages(s)),
               Paging.PageNumbers(|s.packages|))
  }

  /** The page with the corrected Next rule: the same screen except that Next
      is disabled from the last page on. */
  function ViewFixed(s: State): (v: Screen)
    ensures !v.Table? ==> v == View(s)
    ensures v.Table? ==> View(s).Table? && v == View(s).(nextDisabled := v.nextDisabled)
    ensures v.Table? ==> (v.nextDisabled <==> s.page >= TotalPages(s))
  {
    match View(s)
    case Table(rows, prev, _, buttons) => Table(rows, prev, NextDisabled(s.packages, s.page), buttons)
    case other => other
  }

  /** `handlePageChange(page)`: only the current page changes. */
  function GoTo(s: State, page: int): (s': State)
    ensures s'.page == page
    ensures s' == s.(page := s'.page)
  {
    s.(page := page)
  }

  /** As written, Next stays enabled on a page at or beyond the last one
      whenever the page number is not exactly the page count, and following it
      shows an empty table. */
  lemma NextAsWrittenLeadsPastEnd(s: State)
    requires View(s).Table? && !View(s).nextDisabled
    requires s.page >= 1 && s.page >= TotalPages(s)
    ensures View(GoTo(s, s.page + 1)).Table? && View(GoTo(s, s.page + 1)).rows == []
  {
  }

  /** The concrete case: one wishlisted package, deleted from the first page
      (the view's own `wishlist` list stays empty, as the fetch never fills it).
      The page count drops to zero, Next is enabled, and it leads to an empty
      page 2 on which Next is still enabled. */
  lemma DeletingLastPackageLeavesNextEnabled(email: string)
    ensures var s := State([], [Package("p1", "Sundarbans")], false, None, 1);
            var s' := HandleDelete(s, email, "p1", Done).0;
            s'.packages == [] && View(s').Table? && !View(s').nextDisabled
            && View(GoTo(s', s'.page + 1)) == Table([], false, false, [])
  {
    var p := Package("p1", "Sundarbans");
    var s := State([], [p], false, None, 1);
    var s' := HandleDelete(s, email, "p1", Done).0;
    assert p !in s'.packages;
    assert s'.packages == [];
    assert Paging.PageNumbers(0) == [];
  }

  /** With the corrected rule, from any page the pager can show, Next is
      enabled exactly when the next page has rows, and Previous is enabled on
      a page within range exactly when the previous page has rows. */
  lemma EnabledButtonsLeadToRows(s: State)
    requires ViewFixed(s).Table? && s.page >= 1
    ensures !ViewFixed(s).nextDisabled <==> |Paging.PageOf(s.packages, s.page + 1)| > 0
    ensures !ViewFixed(s).prevDisabled && s.page <= TotalPages(s) + 1 <==> |Paging.PageOf(s.packages, s.page - 1)| > 0
  {
    if s.page >= 2 {
      assert |Paging.PageOf(s.packages, s.page - 1)| > 0 <==> (s.page - 2) * Paging.PageSize < |s.packages|;
    } else {
      assert Paging.PageOf(s.packages, 0) == [];
    }
  }
}

=== FILE: wishlist_toggle.dfy ===
/** The heart button on the package cards of the travel-guide section
    (`TourismAndTravelGuide`): the wishlist is the list of wishlisted package
    ids, and the button adds or removes the card's id. */
module WishlistToggle {
  import opened Base
  import opened Identity
  import ListOps

  const LoginNeeded: string := "You need to be logged in to manage your wishlist."
  const Removed: string := "Package removed from wishlist."
  const Added: string := "Package added to wishlist."
  const UpdateFailed: string := "Error updating wishlist."

  /** A wishlist entry as the backend returns it. */
  datatype Entry = Entry(email: string, packageId: string)

  datatype Toast = Success(text: string) | Error(text: string)

  /** The wishlist requests; both carry the email of the signed-in user. */
  datatype Call = DeleteEntry(email: string, packageId: string) | PostEntry(email: string, packageId: string)

  /** The wishlist state after a fetch: the package id of every entry, in order. */
  function WishlistIds(entries: seq<Entry>): (ids: seq<string>)
    ensures |ids| == |entries|
    ensures forall i :: 0 <= i < |entries| ==> ids[i] == entries[i].packageId
  {
    seq(|entries|, i requires 0 <= i < |entries| => entries[i].packageId)
  }

  /** The heart is filled iff the card's package is wishlisted. */
  function Heart(wishlist: seq<string>, packageId: string): (filled: bool)
    ensures filled <==> exists i :: 0 <= i < |wishlist| && wishlist[i] == packageId
  {
    packageId in wishlist
  }

  /** The wishlist fetch of the effect: it runs only with a user, replaces the
      list on success and keeps it on failure. */
  function FetchWishlist(wishlist: seq<string>, user: Option<User>, reply: Result<seq<Entry>>): (w: seq<string>)
    ensures user.None? || reply.Err? ==> w == wishlist
    ensures user.Some? && reply.Ok? ==> |w| == |reply.value|
    ensures user.Some? && reply.Ok? ==> forall i :: 0 <= i < |w| ==> w[i] == reply.value[i].packageId
  {
    if user.Some? && reply.Ok? then WishlistIds(reply.value) else wishlist
  }

  /** After a fetch, a card's heart is filled iff one of the user's entries
      names its package. */
  lemma HeartAfterFetch(user: User, entries: seq<Entry>, packageId: string)
    ensures Heart(FetchWishlist([], Some(user), Ok(entries)), packageId)
            <==> exists i :: 0 <= i < |entries| && entries[i].packageId == packageId
  {
    var w := FetchWishlist([], Some(user), Ok(entries));
    if exists i :: 0 <= i < |entries| && entries[i].packageId == packageId {
      var i :| 0 <= i < |entries| && entries[i].packageId == packageId;
      assert w[i] == packageId;
    }
  }

  /** `handleWishlistToggle(packageId)`. Without a user nothing is sent and
      the list is kept. Otherwise a wishlisted id is DELETEd and then removed
      from the list (every occurrence), and any other id is POSTed and then
      appended. A failed request keeps the list. */
  function Toggle(wishlist: seq<string>, user: Option<User>, packageId: string, reply: Outcome): (r: (seq<string>, seq<Call>, Toast))
    ensures user.None? ==> r == (wishlist, [], Error(LoginNeeded))
    ensures user.Some? ==> |r.1| == 1 && r.1[0].email == user.value.account.email && r.1[0].packageId == packageId
    ensures user.Some? ==> (r.1[0].DeleteEntry? <==> packageId in wishlist)
    ensures user.Some? && reply.Failed? ==> r.0 == wishlist && r.2 == Error(UpdateFailed)
    ensures user.Some? && reply.Done? ==> (packageId in r.0 <==> packageId !in wishlist)
    ensures user.Some? && reply.Done? ==> forall x :: x != packageId ==> (x in r.0 <==> x in wishlist)
    ensures user.Some? && reply.Done? && packageId !in wishlist ==> r.0 == wishlist + [packageId] && r.2 == Success(Added)
    ensures user.Some? && reply.Done? && packageId in wishlist ==> r.2 == Success(Removed)
  {
    match user
    case None => (wishlist, [], Error(LoginNeeded))
    case Some(u) =>
      if packageId in wishlist then
        var call := DeleteEntry(u.account.email, packageId);
        if reply.Done? then
          var kept := ListOps.FilterOut(wishlist, (x: string) => x == packageId);
          assert forall x :: x != packageId && x in wishlist ==> multiset(kept)[x] > 0;
          (kept, [call], Success(Removed))
        else (wishlist, [call], Error(UpdateFailed))
      else
        var call := PostEntry(u.account.email, packageId);
        if reply.Done? then (wishlist + [packageId], [call], Success(Added))
        else (wishlist, [call], Error(UpdateFailed))
  }

  /** Adding an id that was not wishlisted and toggling it again gives back
      the original list. */
  lemma {:induction false} ToggleTwiceRestores(wishlist: seq<string>, user: User, packageId: string)
    requires packageId !in wishlist
    ensures var (once, _, _) := Toggle(wishlist, Some(user), packageId, Done);
            Toggle(once, Some(user), packageId, Done).0 == wishlist
  {
    var drop := (x: string) => x == packageId;
    ListOps.FilterOutAppend(wishlist, [packageId], drop);
    ListOps.FilterOutNoneDropped(wishlist, drop);
    assert ListOps.FilterOut([packageId], drop) == [];
  }

  /** After a successful toggle the card's heart shows the opposite state, and
      every other card's heart is unchanged. */
  lemma ToggleFlipsHeart(wishlist: seq<string>, user: User, packageId: string, other: string)
    requires other != packageId
    ensures var w := Toggle(wishlist, Some(user), packageId, Done).0;
            Heart(w, packageId) == !Heart(wishlist, packageId) && Heart(w, other) == Heart(wishlist, other)
  {
  }
}
